=== FILE: README.md ===
# Realm combat core in Dafny

A model of the server-side bookkeeping of a character in the Realm multiplayer arena
game (Unreal Engine, C++). It covers three parts:

- **Stat table and effect engine (`AStatsManager`), `stats.dfy`.**
  - Every stat has three layers of length `ES_Max`: base, mod and bonus.
  - The current value is base + mod + bonus. The unaffected value is base + mod.
  - Timed effects are kept in a key→effect map and in a replicated effect list. Each
    effect adds its per-stat amounts into the bonus layer and takes them out again when
    it ends.
  - The mod layer is rebuilt from the equipped mods.
  - A level-up grows nine base stats by their per-level stats.
  - A reconciliation pass rebuilds the map from the list.
- **Mod recipes and shop (`AMod`), `mods.dfy` and `shop.dfy`.**
  - Recursive recipe expansion.
  - The discounted "needed cost".
  - The UI recipe and its cost.
  - The affordability check with its five-slot cap.
  - The purchase. It debits the price and unequips from the buyer exactly the mods the
    matching loop matched, in lockstep with a working copy. The matching loop is given
    once, as a recursive function, and both loops are proved to compute it.
- **Character combat state (`AGameCharacter`), `character.dfy`.**
  - Damage mitigation, and the health/death outcome of `TakeDamage`.
  - Same-frame hit coalescing (`ReplicateHit`).
  - The auto-attack flag machine: wind-up, launch, cooldown and the range poll.
  - Critical hits.
  - Death, which runs once: a character already dying changes nothing, in itself or in
    the world. The experience is split among nearby enemy players, and every other
    character of the world keeps its progression.
  - Experience and level-up.
  - One active ailment plus a FIFO queue, and the movement/attack gates.
  - Equipping and unequipping mods, credits, and the health and flare regen ticks.

The stats manager and the character are classes whose methods update their fields in
place. The three stat layers are `array<real>`. The map, the list, the mod list and the
ailment queue are `map` and `seq` fields.

Several things are explicit inputs rather than engine calls:
- the random crit roll;
- the 2-D distance to the target;
- the squared distance of each player found in the world;
- the world clock, as integer milliseconds;
- whether the game mode exists and whether a level transition is under way.

Each engine timer is a boolean meaning "scheduled". Its callback is a method of the same
name, which the environment calls.

`common.dfy` holds `Option` and the two C++ truncations: integer division, and the
float-to-int conversion.

## Model

| member | source | states |
|---|---|---|
| Stats.GrowthOf | Realm/Private/StatsManager.cpp:169-180 | the nine grown base stats and the per-level stat each one reads, all within the stat table |
| Stats.GrowthSourcesAreNotGrown | Realm/Private/StatsManager.cpp:167-181 | no per-level stat that a level-up reads is itself grown, so reading them all before the writes changes nothing |
| Stats.Grown | Realm/Private/StatsManager.cpp:169-180 | a base stat without per-level growth keeps its value |
| Stats.LevelGrowth | Realm/Private/StatsManager.cpp:167-181 | a level-up keeps one value per stat in every layer |
| Stats.GrowthWrites | Realm/Private/StatsManager.cpp:169-180 | growth writes made one after another, each reading the base layer that the writes before it left, keep one value per stat |
| Stats.GrowthWritesStep | Realm/Private/StatsManager.cpp:169-180 | the writes for the first k + 1 stats of an order are those for the first k followed by the write for stat k |
| Stats.GrowthWritesEffect | Realm/Private/StatsManager.cpp:169-180 | in any order without repeats, the sequential writes grow each written stat exactly as Grown does, from per-level values read before any write, and keep every other base stat, because no write touches a per-level stat that a later write reads |
| Stats.GrownIsGrowthWrites | Realm/Private/StatsManager.cpp:167-181 | the nine writes made in `CharacterLevelUp`'s order (GrowthOrder) give the same base layer as growing every stat from values read before any write |
| Stats.LevelGrowthInOrder | Realm/Private/StatsManager.cpp:167-181 | a state that differs from the old one only by the nine sequential growth writes and the health and flare gains is exactly LevelGrowth of the old state |
| Stats.LevelGrowthEffect | Realm/Private/StatsManager.cpp:167-181 | each grown stat gains the current value of its per-level stat and every other base stat is kept; health and flare gain the current HPPL and FlarePL; nothing else in the manager's state changes |
| Stats.ShiftedAt | Realm/Private/StatsManager.cpp:60-65 | after the effect loop, each bonus entry has moved by the signed sum of the amounts listed for that stat; a stat listed twice gets both amounts |
| Stats.ShiftedRoundTrip | Realm/Private/StatsManager.cpp:53-107 | taking an effect's amounts back off the bonus layer restores the layer exactly as it was before the effect was added |
| Stats.ModLayerAppend | Realm/Private/StatsManager.cpp:151-165 | equipping one more mod raises each mod-layer entry by exactly that mod's delta |
| Stats.RemoveAll | Realm/Private/StatsManager.cpp:104 | TArray::Remove takes out every copy of the removed effect and keeps every other effect with its number of copies; a list without it is unchanged |
| Stats.RemoveAllAppend | Realm/Private/StatsManager.cpp:104 | removal works piece by piece over a concatenation, so the kept entries stay in their order |
| Stats.StatsManager.constructor | Realm/Private/StatsManager.cpp:8-13 | a new manager has three distinct zeroed layers, no effects and is not yet initialized |
| Stats.StatsManager.GetBaseValueForStat | Realm/Private/StatsManager.cpp:43-46 | the base-layer entry of the stat; the other two getters are stated relative to it |
| Stats.StatsManager.GetUnaffectedValueForStat | Realm/Private/StatsManager.cpp:48-51 | unaffected value minus base value is the mod entry |
| Stats.StatsManager.GetCurrentValueForStat | Realm/Private/StatsManager.cpp:38-41 | current value minus unaffected value is the bonus entry |
| Stats.StatsManager.SetMaxHealth | Realm/Private/StatsManager.cpp:15-18 | health becomes the current HP value |
| Stats.StatsManager.SetMaxFlare | Realm/Private/StatsManager.cpp:20-23 | flare becomes the current Flare value |
| Stats.StatsManager.InitializeStats | Realm/Private/StatsManager.cpp:25-36 | the first call copies the first ES_Max base values; a later call leaves the base layer unchanged |
| Stats.StatsManager.AddEffect | Realm/Private/StatsManager.cpp:53-84 | a fresh effect id is mapped under the key and appended to the list; on the authority the bonus layer is shifted up by the amounts, elsewhere it is unchanged; base and mod layers are untouched |
| Stats.StatsManager.EffectFinished | Realm/Private/StatsManager.cpp:86-110 | a key mapped to null changes nothing; otherwise the key leaves the map, every copy of the effect leaves the list, the effect is destroyed and, on the authority, its amounts come off the bonus layer |
| Stats.StatsManager.AddEffectStacks | Realm/Private/StatsManager.cpp:112-121 | only the keyed effect's stack count changes, by the given amount; an absent key changes nothing |
| Stats.StatsManager.GetEffect | Realm/Private/StatsManager.cpp:123-129 | the effect mapped under the key, or null when the key is absent |
| Stats.StatsManager.RemoveHealth | Realm/Private/StatsManager.cpp:131-134 | health drops by the amount |
| Stats.StatsManager.RemoveFlare | Realm/Private/StatsManager.cpp:136-139 | flare drops by the amount |
| Stats.StatsManager.UpdateModStats | Realm/Private/StatsManager.cpp:151-165 | the mod layer becomes the per-stat sum of the equipped deltas, whatever it held before; no mods give all zeros |
| Stats.StatsManager.GrowBaseStat | Realm/Private/StatsManager.cpp:169-180 | the k-th growth write of a level-up, made after the k before it, leaves the base layer as the first k + 1 sequential writes of GrowthOrder do, the mod and bonus layers unchanged |
| Stats.StatsManager.CharacterLevelUp | Realm/Private/StatsManager.cpp:167-181 | with the writes made one at a time in `AStatsManager::CharacterLevelUp`'s order, interleaved with the health and flare updates, the new state is LevelGrowth of the old one: each of HP, Flare, HPRegen, FlareRegen, SpAtk, Atk, Def, SpDef and AtkSp grows by its current per-level value, health and flare grow by current HPPL and FlarePL, and nothing else changes |
| Stats.StatsManager.OnRepUpdateEffects | Realm/Private/StatsManager.cpp:183-216 | null list entries are allowed unless the map has a key (the removal pass reads every entry's key then); the new key set is exactly the last list entry's key, when it was mapped before, plus the keys of the live list effects with a non-empty key (LastKept + LiveKeys); every mapped effect is a live list effect under its own key or the effect mapped under that key before (ListOrKept); every mapped key is the key of some non-null list effect; only the map changes |
| Stats.StatsManager.RemoveUnlistedKeys | Realm/Private/StatsManager.cpp:185-194 | with an empty map the list is never read, so it may hold null entries; the removal pass keeps exactly the mapped keys that equal the last list entry's key, because its found flag is overwritten for each entry; kept keys keep their effects |
| Stats.LastKept | Realm/Private/StatsManager.cpp:185-194 | a key survives the removal pass exactly when it was mapped and is the key of the last list entry |
| Stats.StatsManager.MapListEntries | Realm/Private/StatsManager.cpp:196-212 | the adding pass adds exactly the keys of the live list effects with a non-empty key, and every effect it leaves mapped is one of them under its own key or was mapped before |
| Stats.StatsManager.MapListEntry | Realm/Private/StatsManager.cpp:199-211 | one list entry: a null or destroyed effect or an empty key changes nothing; otherwise its key is mapped afterwards, either to the entry itself or, when the key was mapped already, possibly to the effect it held (the found flag is overwritten for every visited key, so only a key visited last is left alone) |
| Stats.MappedKey | Realm/Private/StatsManager.cpp:199-211 | at most one key, and one exactly when the entry is live with a non-empty key |
| Stats.LiveKeysSnoc | Realm/Private/StatsManager.cpp:196-212 | visiting one more list entry adds exactly that entry's mapped key |
| Stats.LiveKeysMembers | Realm/Private/StatsManager.cpp:196-212 | a key is added by the adding pass exactly when some list entry is mapped under it |
| Stats.MappedThroughStep | Realm/Private/StatsManager.cpp:196-212 | each visited entry keeps the adding pass's invariant: keys added so far and every mapped effect live under its own key or kept |
| Stats.ListOrKeptStep | Realm/Private/StatsManager.cpp:210-211 | mapping a live list effect under its own key keeps every mapped effect accounted for |
| Stats.ListOrKeptThrough | Realm/Private/StatsManager.cpp:183-216 | an effect kept through the removal pass is the one mapped before the reconciliation |
| Stats.ListOrKeptResolved | Realm/Private/StatsManager.cpp:183-216 | every non-null mapped effect stays in the effect table, so the manager stays valid |
| Stats.StatsManager.ReconciledKeysAreListKeys | Realm/Private/StatsManager.cpp:183-216 | whatever null entries the list holds, every key the two passes leave is the key of a non-null list effect, and every live list effect with a non-empty key is among the added keys |
| Stats.StatsManager.AddCreatedEffect | Realm/Private/StatsManager.cpp:218-225 | a live effect is mapped under its own key and appended to the list unless already present; anything else changes nothing |
| Mods.Expansion | Realm/Private/Mod.cpp:203-210 | the pre-order expansion is at least as long as the recipe and holds only catalogued classes |
| Mods.ExpansionAppend | Realm/Private/Mod.cpp:205-209 | expanding a concatenation expands each part in turn |
| Mods.ExpansionContainsDirect | Realm/Private/Mod.cpp:207-208 | every direct recipe entry occurs in the expansion |
| Mods.GetRecipe | Realm/Private/Mod.cpp:203-210 | the list's old contents stay in front and only catalogued classes are appended after them |
| Mods.ExpandedRecipeShape | Realm/Private/Mod.cpp:203-210 | every direct entry is in the expanded recipe, and an empty recipe expands to nothing |
| Mods.GetUIRecipeForMod | Realm/Private/Mod.cpp:233-241 | exactly the direct recipe entries are appended, in order; an unknown class appends nothing |
| Mods.GetUIRecipeCost | Realm/Private/Mod.cpp:243-259 | the list price less the prices of the direct (unexpanded) entries; 0 for an unknown class |
| Mods.RemoveAt | Realm/Private/Mod.cpp:162-163 | removing one entry shortens the list by one and keeps every other entry |
| Mods.MatchFromClass | Realm/Private/Mod.cpp:155-167 | the outer loop: it ends with the current state once the class index reaches the end of the class list, and otherwise runs the inner loop from the first mod |
| Mods.MatchFromMod | Realm/Private/Mod.cpp:157-166 | the inner loop: a match subtracts the mod's price, removes the mod and the class and goes on with the next index, so the mod that moved into the slot is skipped; reading the class list past its end is the None outcome |
| Mods.MatchOutcome | Realm/Private/Mod.cpp:153-167 | the outcome of the nested matching loop, from no discount, no matches and the full lists |
| Mods.MatchStep | Realm/Private/Mod.cpp:159-165 | one match keeps the bookkeeping: matched plus remaining mods are the owned mods, their classes plus the remaining classes are the recipe, and the discount is the matched mods' price sum |
| Mods.MatchAdvance | Realm/Private/Mod.cpp:157-166 | one pass of the inner loop body keeps the bookkeeping and leaves the loop's outcome unchanged |
| Mods.MatchFromClassAccounted | Realm/Private/Mod.cpp:155-167 | every outcome reached from the outer loop with balanced bookkeeping is balanced |
| Mods.MatchFromModAccounted | Realm/Private/Mod.cpp:157-166 | every outcome reached from the inner loop with balanced bookkeeping is balanced |
| Mods.MatchOutcomeIsMatch | Realm/Private/Mod.cpp:153-167 | every outcome is a match: matched and remaining mods make up the owned mods, likewise for the classes, the discount is the matched mods' price sum, the match count is bounded by both lists and every match is a recipe class |
| Mods.NothingOwnedNothingMatched | Realm/Private/Mod.cpp:155-167 | with no owned mods the loop matches nothing and keeps the whole recipe |
| Mods.MatchRecipe | Realm/Private/Mod.cpp:153-167 | the loop as written computes exactly MatchOutcome, so its outcome is a match of the recipe, and with no owned mods nothing matches |
| Mods.MatchedBounds | Realm/Private/Mod.cpp:153-167 | the number of matches is at most the number of owned mods and at most the number of recipe classes, and every match is a recipe class |
| Characters.MakeAilmentInfo | Realm/Private/GameCharacter.cpp:988-998 | the record carries the four given values |
| Characters.MergeHit | Realm/Private/GameCharacter.cpp:116-142 | a hit is dropped exactly when it is a kill and the stored hit is a kill from the same instigator in the same frame; otherwise the damage adds up within the frame, starts over outside it, and the timeout becomes now + 0.5 s |
| Characters.SecondKillDropped | Realm/Private/GameCharacter.cpp:121-125 | a second kill by the same instigator in the same frame is always dropped |
| Characters.SameFrameHitsAccumulate | Realm/Private/GameCharacter.cpp:121-139 | two non-lethal hits in one frame store the sum of their damage; a hit in a later frame stores only its own |
| Characters.DeathLeavesAtRest | Realm/Private/GameCharacter.cpp:645-683 | after a death the character is dying with no target and no launch, every callback timer stopped, and the lethal hit stored unless MergeHit dropped it, in which case the old hit and its timeout stay |
| Characters.Mitigated | Realm/Private/GameCharacter.cpp:524-531 | the result is never negative or above max(damage, 0); defense applies only to physical damage and special defense only to special damage, each only when it is non-negative |
| Characters.CritDamage | Realm/Private/GameCharacter.cpp:285-289 | attack × (1 + crit ratio) exactly when crit chance > 0 and the roll is at most chance × 100; plain attack otherwise |
| Characters.NextLevelExperience | Realm/Private/GameCharacter.cpp:898 | (level + 1)² / EXP_CONST² in integer division while level + 1 is within the cap, else 0 |
| Characters.ThresholdMonotone | Realm/Private/GameCharacter.cpp:896-899 | below the cap, the next-level threshold never shrinks as the level rises |
| Characters.ExperienceShare | Realm/Private/GameCharacter.cpp:699-702 | a level-1 recipient gets the reward divided by the recipient count; any other gets the reward plus 2.45 per victim level, divided by the count and truncated toward zero |
| Characters.ShareWithinReward | Realm/Private/GameCharacter.cpp:697-703 | each share is non-negative, and n shares never add up to more than the reward being split |
| Characters.DivShareBounded | Realm/Private/GameCharacter.cpp:700 | the integer share of a non-negative reward is non-negative and n of them fit in the reward |
| Characters.RealShareBounded | Realm/Private/GameCharacter.cpp:702 | the truncated real share of a non-negative total is non-negative and n of them fit in the total |
| Characters.Promoted | Realm/Private/GameCharacter.cpp:913-920 | a level-up on a progression: one more level and skill point, and the stats grow as LevelGrowth says |
| Characters.Gain | Realm/Private/GameCharacter.cpp:901-911 | an experience award on a progression: below the cap the amount is added and reaching the threshold promotes once; at the cap experience is pinned to EXP_CONST |
| Characters.GainEffect | Realm/Private/GameCharacter.cpp:901-911 | one award raises the level by at most one, never past the cap, exactly when the threshold of the old level is reached; skill points follow the level; the stats grow exactly when the level rises |
| Characters.GainsStayCapped | Realm/Private/GameCharacter.cpp:901-920 | however much experience arrives, the level never passes the cap, rises by at most one per award, and skill points follow it |
| Characters.DistinctCount | Realm/Private/GameCharacter.cpp:694 | a list built with AddUnique has as many distinct members as entries |
| Characters.InstigatorCharacter | Realm/Private/GameCharacter.cpp:510-519 | an AI controller's character or a player controller's player character; none for any other controller |
| Characters.GiveShare | Realm/Private/GameCharacter.cpp:699-702 | one award: the k-th recipient's progression becomes Gain of the share; every other recipient and every bystander keeps its progression |
| Characters.Character.constructor | Realm/Private/GameCharacter.cpp:14-26 | a new character is valid, at level 1, with a fresh stats manager, no mods, no ailment, not dying and not attacking |
| Characters.Character.IsAlive | Realm/Private/GameCharacter.cpp:605-608 | alive exactly while not dying |
| Characters.Character.ReplicateHit | Realm/Private/GameCharacter.cpp:116-142 | the stored hit and its timeout follow MergeHit, and are left alone when it drops the hit; the rest of the combat state (flags, target, timers) is unchanged |
| Characters.Character.CanMove | Realm/Private/GameCharacter.cpp:156-159 | false exactly while a stun or a knockup is active |
| Characters.Character.CanAutoAttack | Realm/Private/GameCharacter.cpp:161-164 | true exactly with no ailment and no running action, so it implies CanMove |
| Characters.Character.CanPerformSkills | Realm/Private/GameCharacter.cpp:166-169 | gated exactly like CanAutoAttack |
| Characters.Character.StartAutoAttack | Realm/Private/GameCharacter.cpp:234-266 | without a valid target, attack manager, stats or life, or while winding up, nothing changes; otherwise the range poll is set, and the wind-up starts exactly when not on cooldown and the distance is at most the attack range (inclusive) |
| Characters.Character.LaunchAutoAttack | Realm/Private/GameCharacter.cpp:268-322 | without a valid live target, or when pending kill, the target is dropped and nothing is delivered; otherwise a projectile carries CritDamage, an instant hit carries plain attack, and the character ends on cooldown, not winding up, with the range poll cleared |
| Characters.Character.CheckAutoAttack | Realm/Private/GameCharacter.cpp:324-370 | a missing or dead target is dropped and the wind-up cancelled; out of range the wind-up is cancelled; in range an idle attack winds up |
| Characters.Character.OnFinishAATimer | Realm/Private/GameCharacter.cpp:377-384 | the cooldown ends and, with a valid target, the attack restarts exactly as StartAutoAttack would |
| Characters.Character.ResetAutoAttack | Realm/Private/GameCharacter.cpp:372-375 | the same outcome as OnFinishAATimer |
| Characters.Character.StopAutoAttack | Realm/Private/GameCharacter.cpp:386-393 | the target is dropped, and the wind-up and the range poll are cancelled; the rest of the combat state is unchanged |
| Characters.Character.GetNextLevelExperience | Realm/Private/GameCharacter.cpp:896-899 | 0 at or past the cap; below it, a non-negative value at most (level + 1)² / EXP_CONST² |
| Characters.Character.LevelUp | Realm/Private/GameCharacter.cpp:913-920 | the new progression is Promoted of the old: level and skill points each rise by one and the stats manager's state grows as LevelGrowth says, nothing else in it changing |
| Characters.Character.GiveCharacterExperience | Realm/Private/GameCharacter.cpp:901-911 | the new progression is Gain of the old one and the amount, stats manager included (see GainEffect) |
| Characters.Character.GiveCharacterAilment | Realm/Private/GameCharacter.cpp:936-965 | off the server nothing changes; while an ailment is active the new one is only enqueued; otherwise it becomes current, and its timer is set only when a movement component exists |
| Characters.Character.CurrentAilmentFinished | Realm/Private/GameCharacter.cpp:972-986 | the current ailment is cleared, exactly one queued item is dequeued, and that item is applied only if it is not None |
| Characters.Character.AddMod | Realm/Private/GameCharacter.cpp:842-848 | a non-null mod is appended, and the mod layer equals the sum of the equipped mods' deltas |
| Characters.Character.RemoveMod | Realm/Private/GameCharacter.cpp:850-857 | an index out of range changes nothing; otherwise exactly that mod is removed and the character stays valid, so the mod layer stays in sync |
| Characters.Character.ChangeCredits | Realm/Private/Mod.cpp:183 | credits change by exactly the delta |
| Characters.Character.HealthRegen | Realm/Private/GameCharacter.cpp:581-591 | a quarter of the regen rate is added while that stays below the maximum; otherwise health is set to the maximum and the timer stops; either way health ends at most at the maximum |
| Characters.Character.FlareRegen | Realm/Private/GameCharacter.cpp:593-603 | the same as HealthRegen, for flare |
| Characters.Character.Rewarded | Realm/Private/GameCharacter.cpp:688-694 | a world entry is rewarded when it is a valid player character of another team within the reward range, compared squared and inclusive |
| Characters.Character.ExperienceRecipients | Realm/Private/GameCharacter.cpp:685-695 | the list holds, each exactly once, the valid enemy players within the reward range (inclusive, compared squared) |
| Characters.Character.RecipientsApart | Realm/Private/GameCharacter.cpp:697-703 | recipients drawn from a well-formed world are valid, and keep their state apart from each other and from the dying character |
| Characters.Character.AwardExperience | Realm/Private/GameCharacter.cpp:697-703 | each recipient's progression becomes Gain of its share, computed from its own level, the victim's level and the recipient count, level-ups and stat growth included; bystanders keep theirs |
| Characters.Character.KillRewarded | Realm/Private/GameCharacter.cpp:681-704 | what a death does to the world: every other character stays valid; when rewarded, each recipient's progression is Gain of its share over the number of distinct recipients, and every other character keeps its progression |
| Characters.Character.ShareKillReward | Realm/Private/GameCharacter.cpp:681-704 | the world ends as KillRewarded says with the reward handed out; the dying character is never a recipient |
| Characters.Character.OnDeath | Realm/Private/GameCharacter.cpp:671-766 | a dying character changes nothing in itself and no other character's progression; otherwise its combat state becomes Dying of the old one, with the kill replicated through MergeHit on the authority only (off it the stored hit and timeout stay), so the cooldown and ailment timers are untouched; the world ends as KillRewarded says |
| Characters.Character.MarkDying | Realm/Private/GameCharacter.cpp:679-683 | the character's own part of a death: the combat state becomes Dying of the old one, after replicating the lethal hit through MergeHit on the authority only; nothing else in the combat state changes |
| Characters.Character.PlayHit | Realm/Private/GameCharacter.cpp:203-232 | a pending-kill character or one off the server stores nothing; on the authority the hit is stored via MergeHit as non-lethal; the rest of the combat state is unchanged |
| Characters.Character.CanDie | Realm/Private/GameCharacter.cpp:610-622 | false when dying, pending kill, off the server, without a game mode or while leaving the map; true otherwise |
| Characters.Character.Die | Realm/Private/GameCharacter.cpp:645-669 | dies exactly when CanDie holds; then the combat state is TimersCleared(Dying(…)) of the old one with the lethal hit replicated through MergeHit, so every timer is stopped, the target dropped, and the stored hit kept when MergeHit drops it; the world ends as OnDeath leaves it; otherwise nothing changes in the character and every other character keeps its progression |
| Characters.Character.ClearAllTimers | Realm/Private/GameCharacter.cpp:665 | the six timers bound to the character's callbacks are cleared and the rest of the combat state is unchanged; the other characters passed in keep their progression |
| Characters.Character.DamageRejected | Realm/Private/GameCharacter.cpp:495-522 | off the server, without stats, when dying, on friendly fire from a same-team player controller, or with no instigating character |
| Characters.Character.TakeDamage | Realm/Private/GameCharacter.cpp:493-554 | returns 0 and changes nothing when DamageRejected holds; otherwise returns the mitigated damage, and health ends at old − damage when that stays positive, else at exactly 0 with Die run; a surviving hit stores the hit via MergeHit (unless pending kill), starts health regen and changes nothing else in the combat state; a death leaves the combat state as Die does; a lethal hit without death only starts health regen; the world changes only as KillRewarded says, and only on a death |
| Characters.Character.ApplyDamage | Realm/Private/GameCharacter.cpp:533-551 | a surviving character loses exactly the damage, plays the hit and has health regen running, the rest of its combat state unchanged; a lethal hit empties health and the character dies unless pending kill or leaving the map, its combat state then as Die leaves it; the world changes only on that death |
| Characters.Character.LethalHit | Realm/Private/GameCharacter.cpp:540-550 | health ends at exactly 0; the character dies unless pending kill or leaving the map, with the combat state as Die leaves it and the world as KillRewarded says; a character that did not die only has health regen started |
| Characters.Character.SurviveHit | Realm/Private/GameCharacter.cpp:535-550 | health drops by exactly the damage, the hit is played, and health regen runs; the rest of the combat state is unchanged |
| Characters.Character.EmptyHealth | Realm/Private/GameCharacter.cpp:542-550 | health ends at exactly 0, and health regen runs afterwards exactly when it already ran or the character is alive; the rest of the combat state is unchanged; the other characters passed in keep their progression |
| Characters.Character.StartHealthRegen | Realm/Private/GameCharacter.cpp:550 | the looping health regen timer is set |
| Shop.NeededCost | Realm/Private/Mod.cpp:23-38 | the list price less the price of every owned mod whose class occurs anywhere in the expanded recipe |
| Shop.GetCost | Realm/Private/Mod.cpp:14-40 | the list price, unless the needed cost is asked for a valid buyer; then the list price less every owned mod whose class is anywhere in the expanded recipe |
| Shop.NoDiscountOutsideRecipe | Realm/Private/Mod.cpp:32-36 | owned mods outside the expanded recipe give no discount |
| Shop.NeededCostAtMostPrice | Realm/Private/Mod.cpp:31-38 | with prices that are not negative, the needed cost is at most the list price |
| Shop.SampleNeededCosts | Realm/Private/Mod.cpp:23-38 | a 50-credit mod whose recipe is a 20-credit mod costs 30 to its owner, 10 to the owner of two copies, and 50 to a buyer owning neither |
| Shop.BuyVerdict | Realm/Private/Mod.cpp:169-175 | refused when the buyer would hold more than five mods; otherwise allowed when the credits cover the list price or the discounted price |
| Shop.BuyOutcome | Realm/Private/Mod.cpp:148-175 | None when the matching loop reads past the class list; otherwise the verdict on what MatchOutcome matched |
| Shop.CanCharacterBuyThisMod | Realm/Private/Mod.cpp:138-176 | false for an invalid buyer; otherwise exactly BuyOutcome for the buyer's mods and credits, the loop's outcome being MatchOutcome and a match of the recipe |
| Shop.SampleBuyOutcomes | Realm/Private/Mod.cpp:153-175 | a 50-credit mod with a 20-credit recipe item: owning the item, 30 credits buy it and 29 do not; owning nothing, 50 do and 49 do not; a second matching mod behind an unrelated one makes the loop read past its class list |
| Shop.MatchedWithinOwned | Realm/Private/Mod.cpp:153-167 | matched recipe items cost at most the owned recipe cost that GetCost subtracts |
| Shop.AllowedPurchaseAffordable | Realm/Private/Mod.cpp:138-201 | when the check allows a purchase and no price is negative, the credits left after CharacterPurchasedMod's debit are not negative |
| Shop.CharacterPurchasedMod | Realm/Private/Mod.cpp:178-201 | an invalid buyer changes nothing; otherwise credits drop by exactly GetCost(true) taken before any removal, and the removal succeeds exactly when MatchOutcome does, unequipping exactly its matched mods and leaving its remaining mods |
| Shop.RemoveRecipeMods | Realm/Private/Mod.cpp:185-200 | succeeds exactly when MatchOutcome does; then the removed mods are its matched mods and the buyer keeps its remaining mods; in any case removed and kept mods make up the old list, and every removed mod is a recipe class |

## Left out

- Actor spawning and lifetime, replication plumbing, RPC validation stubs, animation,
  ragdoll, collision, movement calls, HUD notifications, sound and visibility traces.
  None of them changes the bookkeeping modelled here.
- The engine timer manager's clock. Timers are booleans. A timer that fires is not
  cleared by firing, because its callback is a separate method.
- `FMath::RandRange`, `Size2D` and `SizeSquared2D`. The roll and the distances are
  parameters.
- IEEE float rounding. Stats are exact reals, and the `2.45f` factor is the exact
  real 2.45.
- The `int32` width is not modelled: experience, credits and prices are unbounded
  integers. The float→int conversion and integer division do truncate toward zero, as
  C++ does.
- `MAX_LEVEL`, `EXP_CONST`, the `EStat` order and `ES_Max` come from headers that are not
  part of this model. They are chosen constants (18, 1, a fixed order, 24). What is
  proved relies only on the two constants being positive.
- `RemoveAllEffects` (called by `Die`) is not part of this model, so `Die` leaves the
  effects alone.
- `Die` resolves the killer through `GetDamageInstigator` and the controller. That
  lookup is engine code, so the model's `Die` receives the killer already resolved.
- The second clause of the friendly-fire test in `TakeDamage` reads `damageCausingGC`
  before anything is assigned to it, so it never holds; the model leaves it out.
- `CharacterDamaged` and `MakeNoise` in `TakeDamage` are calls into AI code that is not
  part of this model.
- `UseSkill`, `GetStatsDescription`, the mod cooldown queries, `KilledBy` and `Suicide`.
- The `AddEffect` wrapper on the character. It disagrees with the stats manager's
  signature, so the stats manager's version is modelled.
- Characters.Character.LaunchAutoAttack: it returns the hit it delivers instead of
  calling the target's `TakeDamage` itself. Applying the hit is `TakeDamage` on the
  target.
- Characters.Character.KillRewarded: it states the progression (level, experience, skill
  points and stats state) of every other character of the world. Their other fields are
  kept only by the modifies clauses of the methods that use it.
- Characters.Character.Die, Characters.Character.OnDeath and
  Characters.Character.LethalHit apply a few independent writes in a different order
  from the source: the reward before the dying flag, the timers cleared after OnDeath,
  and health emptied after Die. Each place has a comment saying why the final state is
  the same.
- Shop.CanCharacterBuyThisMod, Shop.CharacterPurchasedMod: the matching loops can read
  `classList[i]` past its end once a match removed the last class (Mods.MatchOutcome is
  None then). The model returns that outcome (`None`, or `ok == false`) instead of
  crashing. After that outcome only the balance of removed and kept mods is stated.
- Shop.CharacterPurchasedMod: it requires a stats manager on a valid buyer. The source
  needs one only when a mod is actually removed.
- Stats.StatsManager.MapListEntries: the adding pass works on a copy of the key map,
  which OnRepUpdateEffects stores back once, instead of updating the field entry by
  entry. Nothing reads the map in between, so the final map is the same.
- Stats.StatsManager.EffectFinished: it requires the key to be mapped, because
  `AStatsManager::EffectFinished` dereferences the lookup before its null check.
- Characters.Character.StopAutoAttack: it requires an attack manager, because
  GameCharacter.cpp:389 dereferences `autoAttackManager` unchecked; the crash is not
  modelled.
- Characters.Character.OnDeath, Characters.Character.MarkDying, Characters.Character.Die
  and Characters.Character.LethalHit: they require an attack manager on the paths that
  reach `StopAutoAttack` (GameCharacter.cpp:389); the crash is not modelled.
- Characters.Character.TakeDamage: it requires an attack manager only for an accepted
  lethal hit on a character that is not pending kill and not leaving the map, the one
  path that reaches `StopAutoAttack` (GameCharacter.cpp:389). It also requires the player
  controller of the instigator to have a character when friendly fire is checked,
  because GameCharacter.cpp:507 dereferences it unchecked. Neither crash is modelled.
- Characters.Character.ApplyDamage: it requires an attack manager only for a lethal hit
  on a character that is not pending kill and not leaving the map (GameCharacter.cpp:389);
  the crash is not modelled.
- Characters.Character.CheckAutoAttack: it requires an attack manager on the branches
  that read its animation (GameCharacter.cpp:328, 344 and 356); the crash is not modelled.
- Characters.Character.LaunchAutoAttack: it requires an attack manager and a stats
  manager for a valid target, because GameCharacter.cpp:291 and 317 dereference them
  unchecked; the crash is not modelled.
- Characters.Character.AddMod, Characters.Character.HealthRegen and
  Characters.Character.FlareRegen: they require a stats manager, because
  GameCharacter.cpp:847, 583 and 595 dereference `statsManager` unchecked; the crash is
  not modelled.
- Mods.Expansion: a catalog must come with a depth witness that makes recipes nest
  finitely. The source has no cycle guard and does not terminate on a cyclic recipe.
- Shop.GetCost and Shop.NeededCost model the code as written: every owned copy of a
  recipe class is discounted, even though a purchase consumes only one copy per recipe
  entry (see Shop.SampleNeededCosts).

=== FILE: character.dfy ===
/** The server-side combat and progression state of one character (AGameCharacter). */
module Characters {
  import opened Common
  import opened Stats
  import opened Mods

  // MAX_LEVEL and EXP_CONST are declared in a header that is not part of this model.
  // What is proved here relies only on both being positive.
  const MAX_LEVEL: int := 18
  const EXP_CONST: int := 1

  /** ReplicateHit's coalescing window, in milliseconds of world time (0.5 s). */
  const HIT_WINDOW_MS: int := 500

  /** The damage type class of a damage event. */
  datatype DamageKind = PhysicalDamage | SpecialDamage | OtherDamage

  datatype Ailment = NoAilment | Stun | Knockup

  datatype Vec3 = Vec3(x: real, y: real, z: real)

  /** FAilmentInfo. */
  datatype AilmentInfo = AilmentInfo(newAilment: Ailment, ailmentText: string, ailmentDuration: real, ailmentDir: Vec3)

  /** An actor that caused damage (a projectile, a skill actor, ...). */
  type ActorId = nat

  /** The last replicated hit (lastTakeHitInfo). */
  datatype TakeHitInfo = TakeHitInfo(actualDamage: real, pawnInstigator: Character?, damageCauser: ActorId,
                                     damageType: DamageKind, killed: bool)

  /** The controller that instigated damage: a player controller with its player
      character, an AI move controller with its character, or something else. */
  datatype InstigatorController = PlayerControl(playerCharacter: Character?) | MoveControl(character: Character?)
                                | OtherControl | NoControl

  /** A player character found in the world, with its squared 2-D distance to the dying
      character. */
  datatype Candidate = Candidate(who: Character?, distSq: real)

  /** What a launched auto attack delivers: nothing, a projectile carrying damage, or
      instant damage that the target then takes through TakeDamage. */
  datatype AutoAttackHit = NoHit | ProjectileHit(target: Character, damage: real) | InstantHit(target: Character, damage: real)

  /** What ReplicateHit does with a hit: drop it, or store it with a new timeout. */
  datatype HitUpdate = Dropped | Stored(info: TakeHitInfo, timeout: int)

  /** MakeAilmentInfo. */
  function MakeAilmentInfo(ailment: Ailment, ailmentString: string, ailmentDuration: real, ailmentDir: Vec3): (info: AilmentInfo)
    ensures info.newAilment == ailment && info.ailmentText == ailmentString
    ensures info.ailmentDuration == ailmentDuration && info.ailmentDir == ailmentDir
  {
    AilmentInfo(ailment, ailmentString, ailmentDuration, ailmentDir)
  }

  /** A hit at `nowMs` falls in the same frame as the stored one: same instigator and the
      same timeout. `AGameCharacter::ReplicateHit` also compares the stored damage type
      with itself, which always holds, so the incoming damage type plays no part. */
  predicate SameFrame(last: TakeHitInfo, lastTimeout: int, instigator: Character?, nowMs: int) {
    instigator == last.pawnInstigator && lastTimeout == nowMs + HIT_WINDOW_MS
  }

  /** How ReplicateHit coalesces a hit with the stored one. */
  function MergeHit(last: TakeHitInfo, lastTimeout: int, damage: real, kind: DamageKind,
                    instigator: Character?, causer: ActorId, killed: bool, nowMs: int): (u: HitUpdate)
    ensures u.Dropped? <==> SameFrame(last, lastTimeout, instigator, nowMs) && killed && last.killed
    ensures u.Stored? ==> u.timeout == nowMs + HIT_WINDOW_MS
    ensures u.Stored? ==> u.info == TakeHitInfo(
      if SameFrame(last, lastTimeout, instigator, nowMs) then damage + last.actualDamage else damage,
      instigator, causer, kind, killed)
  {
    var timeoutTime := nowMs + HIT_WINDOW_MS;
    var sameFrame := instigator == last.pawnInstigator && lastTimeout == timeoutTime;
    if sameFrame && killed && last.killed then Dropped
    else
      var total := if sameFrame then damage + last.actualDamage else damage;
      Stored(TakeHitInfo(total, instigator, causer, kind, killed), timeoutTime)
  }

  /** A second kill by the same instigator in the same frame is dropped, so a lethal hit
      is replicated once however many lethal hits land in that frame. */
  lemma {:induction false} SecondKillDropped(last: TakeHitInfo, lastTimeout: int, d1: real, d2: real, k1: DamageKind, k2: DamageKind,
                                             instigator: Character?, c1: ActorId, c2: ActorId, nowMs: int)
    requires MergeHit(last, lastTimeout, d1, k1, instigator, c1, true, nowMs).Stored?
    ensures var u := MergeHit(last, lastTimeout, d1, k1, instigator, c1, true, nowMs);
      MergeHit(u.info, u.timeout, d2, k2, instigator, c2, true, nowMs) == Dropped
  {
    var u := MergeHit(last, lastTimeout, d1, k1, instigator, c1, true, nowMs);
    assert SameFrame(u.info, u.timeout, instigator, nowMs);
  }

  /** Non-lethal hits by one instigator in one frame add up, whatever their damage types;
      a hit in a later frame starts over. */
  lemma {:induction false} SameFrameHitsAccumulate(last: TakeHitInfo, lastTimeout: int, d1: real, d2: real, k1: DamageKind, k2: DamageKind,
                                                   instigator: Character?, c1: ActorId, c2: ActorId, nowMs: int, laterMs: int)
    requires !SameFrame(last, lastTimeout, instigator, nowMs) && laterMs != nowMs
    ensures var u := MergeHit(last, lastTimeout, d1, k1, instigator, c1, false, nowMs);
      u.Stored? && MergeHit(u.info, u.timeout, d2, k2, instigator, c2, false, nowMs).Stored? &&
      MergeHit(u.info, u.timeout, d2, k2, instigator, c2, false, nowMs).info.actualDamage == d1 + d2 &&
      MergeHit(u.info, u.timeout, d2, k2, instigator, c2, false, laterMs).info.actualDamage == d2
  {
    var u := MergeHit(last, lastTimeout, d1, k1, instigator, c1, false, nowMs);
    assert u.info.actualDamage == d1;
    assert SameFrame(u.info, u.timeout, instigator, nowMs);
    assert !SameFrame(u.info, u.timeout, instigator, laterMs);
  }

  /** The part of a character that hits and deaths change: the dying flag, the replicated
      hit and its timeout, the auto-attack target and launch flag, and the timers bound to
      the character's callbacks. */
  datatype CombatState = CombatState(
    dying: bool, hit: TakeHitInfo, hitTimeout: int, target: Character?, launching: bool,
    aaRangeTimer: bool, aaLaunchTimer: bool, aaTimer: bool,
    healthRegenTimer: bool, flareRegenTimer: bool, ailmentTimer: bool)

  /** ReplicateHit on a combat state: a stored update replaces the hit and its timeout, a
      dropped one changes nothing. */
  function Replicated(c: CombatState, u: HitUpdate): CombatState {
    if u.Stored? then c.(hit := u.info, hitTimeout := u.timeout) else c
  }

  /** The dying character's own part of a death, after the hit is replicated: dying, no
      target, no launch under way, the wind-up, the range poll and both regeneration
      timers stopped; the cooldown and ailment timers are left to ClearAllTimers. */
  function Dying(c: CombatState): CombatState {
    c.(dying := true, target := null, launching := false, aaRangeTimer := false, aaLaunchTimer := false,
       healthRegenTimer := false, flareRegenTimer := false)
  }

  /** ClearAllTimersForObject on a combat state: the six callback timers stopped. */
  function TimersCleared(c: CombatState): CombatState {
    c.(aaRangeTimer := false, aaLaunchTimer := false, aaTimer := false,
       healthRegenTimer := false, flareRegenTimer := false, ailmentTimer := false)
  }

  /** What Die leaves of a combat state: dying, no target and no launch, every callback
      timer stopped, and the lethal hit stored unless it was dropped as a second kill. */
  lemma DeathLeavesAtRest(c: CombatState, u: HitUpdate)
    ensures var d := TimersCleared(Dying(Replicated(c, u)));
      d.dying && d.target == null && !d.launching &&
      !d.aaRangeTimer && !d.aaLaunchTimer && !d.aaTimer && !d.healthRegenTimer && !d.flareRegenTimer && !d.ailmentTimer &&
      (u.Stored? ==> d.hit == u.info && d.hitTimeout == u.timeout) &&
      (u.Dropped? ==> d.hit == c.hit && d.hitTimeout == c.hitTimeout)
  {
  }

  /** Flat mitigation of TakeDamage: defense against physical damage and special defense
      against special damage, each only when non-negative; never below zero. */
  function Mitigated(damage: real, kind: DamageKind, def: real, spDef: real): (r: real)
    ensures r >= 0.0
    ensures r <= (if damage > 0.0 then damage else 0.0)
    ensures kind.PhysicalDamage? && def >= 0.0 ==> r == (if damage - def > 0.0 then damage - def else 0.0)
    ensures kind.SpecialDamage? && spDef >= 0.0 ==> r == (if damage - spDef > 0.0 then damage - spDef else 0.0)
    ensures !(kind.PhysicalDamage? && def >= 0.0) && !(kind.SpecialDamage? && spDef >= 0.0) ==>
      r == (if damage > 0.0 then damage else 0.0)
  {
    var actual :=
      if kind == PhysicalDamage && def >= 0.0 then damage - def
      else if kind == SpecialDamage && spDef >= 0.0 then damage - spDef
      else damage;
    if actual > 0.0 then actual else 0.0
  }

  /** The damage an auto attack deals: attack, times (1 + crit ratio) when the roll in
      [0, 100] is at most the crit chance as a percentage. */
  function CritDamage(atk: real, critChance: real, critRatio: real, crit: int): (dmg: real)
    ensures critChance > 0.0 && crit as real <= critChance * 100.0 ==> dmg == atk * (1.0 + critRatio)
    ensures !(critChance > 0.0 && crit as real <= critChance * 100.0) ==> dmg == atk
  {
    var dmg := atk;
    if critChance > 0.0 && crit as real <= critChance * 100.0 then dmg + dmg * critRatio else dmg
  }

  /** The experience needed for the next level: (level + 1)^2 / EXP_CONST^2 in integer
      division while level + 1 <= MAX_LEVEL, else 0. */
  function NextLevelExperience(level: int): int {
    if level + 1 <= MAX_LEVEL then ((level + 1) * (level + 1)) / (EXP_CONST * EXP_CONST) else 0
  }

  /** Thresholds never shrink as the level rises, up to the cap. */
  lemma ThresholdMonotone(l1: int, l2: int)
    requires 0 <= l1 <= l2 && l2 + 1 <= MAX_LEVEL
    ensures 0 <= NextLevelExperience(l1) <= NextLevelExperience(l2)
  {
    var c := EXP_CONST * EXP_CONST;
    assert c > 0;
    var a, b := (l1 + 1) * (l1 + 1), (l2 + 1) * (l2 + 1);
    assert (l1 + 1) * (l1 + 1) <= (l2 + 1) * (l1 + 1) <= (l2 + 1) * (l2 + 1);
    DivMonotone(a, b, c);
  }

  lemma DivMonotone(a: int, b: int, c: int)
    requires 0 <= a <= b && c > 0
    ensures 0 <= a / c <= b / c
  {
    var q1, r1, q2, r2 := a / c, a % c, b / c, b % c;
    assert a == q1 * c + r1 && 0 <= r1 < c;
    assert b == q2 * c + r2 && 0 <= r2 < c;
    if q1 > q2 {
      MulMonotone(q2 + 1, q1, c);
      assert false;
    }
    if q1 < 0 {
      MulMonotone(q1, -1, c);
      assert false;
    }
  }

  lemma MulMonotone(x: int, y: int, c: int)
    requires x <= y && c >= 0
    ensures x * c <= y * c
  {
  }

  /** The experience each recipient of a kill gets: the base reward split evenly at
      level 1, otherwise the base reward plus 2.45 per level of the VICTIM, split evenly,
      each truncated toward zero as the int32 conversions do. */
  function ExperienceShare(baseExpReward: int, victimLevel: int, recipientLevel: int, n: nat): int
    requires n > 0
  {
    if recipientLevel == 1 then TruncDiv(baseExpReward, n)
    else TruncReal((baseExpReward as real + victimLevel as real * 2.45) / n as real)
  }

  /** Sharing never hands out more than the reward: n shares add up to at most the
      (non-negative) reward being split. */
  lemma ShareWithinReward(baseExpReward: int, victimLevel: int, recipientLevel: int, n: nat)
    requires n > 0 && baseExpReward >= 0 && victimLevel >= 0
    ensures var s := ExperienceShare(baseExpReward, victimLevel, recipientLevel, n);
      s >= 0 &&
      (recipientLevel == 1 ==> s * n <= baseExpReward) &&
      (recipientLevel != 1 ==> (s * n) as real <= baseExpReward as real + victimLevel as real * 2.45)
  {
    if recipientLevel == 1 {
      DivShareBounded(baseExpReward, n);
    } else {
      RealShareBounded(baseExpReward as real + victimLevel as real * 2.45, n);
    }
  }

  /** n integer shares of a non-negative amount add up to at most that amount. */
  lemma DivShareBounded(amount: int, n: nat)
    requires n > 0 && amount >= 0
    ensures 0 <= TruncDiv(amount, n) && TruncDiv(amount, n) * n <= amount
  {
    assert TruncDiv(amount, n) == amount / n;
    assert amount == (amount / n) * n + amount % n;
  }

  /** n truncated shares of a non-negative real amount add up to at most that amount. */
  lemma RealShareBounded(total: real, n: nat)
    requires n > 0 && total >= 0.0
    ensures var s := TruncReal(total / n as real); 0 <= s && (s * n) as real <= total
  {
    var s := TruncReal(total / n as real);
    var x := total / n as real;
    RealDivScale(total, n as real);
    assert s as real <= x;
    RealMulMonotone(s as real, x, n as real);
    assert (s * n) as real == s as real * n as real;
  }

  lemma RealDivScale(t: real, m: real)
    requires t >= 0.0 && m > 0.0
    ensures t / m >= 0.0 && (t / m) * m == t
  {
  }

  lemma RealMulMonotone(a: real, b: real, m: real)
    requires a <= b && m >= 0.0
    ensures a * m <= b * m
  {
  }

  /** A character's progression: level, experience, skill points, and the value state of
      its stats manager (none when it has no stats manager). */
  datatype Standing = Standing(level: int, experience: int, skillPoints: int, stats: Option<StatsState>)

  /** A stats state, when present, holds one value per stat in each layer. */
  predicate Fit(p: Standing) {
    p.stats.Some? ==> Layered(p.stats.value)
  }

  /** LevelUp on a standing: one more level and skill point, and the stats grow. */
  function Promoted(p: Standing): (q: Standing)
    requires Fit(p)
    ensures Fit(q)
  {
    Standing(p.level + 1, p.experience, p.skillPoints + 1,
             if p.stats.Some? then Some(LevelGrowth(p.stats.value)) else None)
  }

  /** GiveCharacterExperience on a standing: below the cap the experience is added and
      reaching the threshold of the current level promotes once; at the cap the experience
      is pinned to EXP_CONST. */
  function Gain(p: Standing, amount: int): (q: Standing)
    requires Fit(p)
    ensures Fit(q)
  {
    if p.level < MAX_LEVEL then
      var added := p.(experience := p.experience + amount);
      if added.experience >= NextLevelExperience(p.level) then Promoted(added) else added
    else p.(experience := EXP_CONST)
  }

  /** One gain: the level rises by at most one and never past the cap, one skill point per
      level gained, and the stats grow exactly when the level rises. */
  lemma GainEffect(p: Standing, amount: int)
    requires Fit(p)
    ensures var q := Gain(p, amount);
      (q.level == p.level || q.level == p.level + 1) &&
      (p.level <= MAX_LEVEL ==> q.level <= MAX_LEVEL) &&
      q.skillPoints - p.skillPoints == q.level - p.level &&
      (p.level < MAX_LEVEL ==> q.experience == p.experience + amount) &&
      (p.level >= MAX_LEVEL ==> q.experience == EXP_CONST) &&
      (q.level == p.level + 1 <==> p.level < MAX_LEVEL && p.experience + amount >= NextLevelExperience(p.level)) &&
      (q.level == p.level ==> q.stats == p.stats) &&
      (q.level == p.level + 1 && p.stats.Some? ==> q.stats == Some(LevelGrowth(p.stats.value)))
  {
  }

  /** Several gains, one after another. */
  function GainAll(p: Standing, amounts: seq<int>): (q: Standing)
    requires Fit(p)
    ensures Fit(q)
    decreases |amounts|
  {
    if amounts == [] then p else GainAll(Gain(p, amounts[0]), amounts[1..])
  }

  /** However much experience arrives, a character never passes the level cap, gains at
      most one level per award, and holds one skill point per level gained. */
  lemma {:induction false} GainsStayCapped(p: Standing, amounts: seq<int>)
    requires Fit(p) && p.level <= MAX_LEVEL
    decreases |amounts|
    ensures var q := GainAll(p, amounts);
      p.level <= q.level <= MAX_LEVEL && q.level - p.level <= |amounts| &&
      q.skillPoints - p.skillPoints == q.level - p.level
  {
    if amounts != [] {
      GainEffect(p, amounts[0]);
      GainsStayCapped(Gain(p, amounts[0]), amounts[1..]);
    }
  }

  /** The distinct elements of a sequence. */
  function ElementsOf<T>(s: seq<T>): (r: set<T>)
    ensures forall k :: 0 <= k < |s| ==> s[k] in r
    ensures forall x :: x in r ==> exists k :: 0 <= k < |s| && s[k] == x
  {
    set k | 0 <= k < |s| :: s[k]
  }

  lemma ElementsOfAppend<T>(s: seq<T>, x: T)
    ensures ElementsOf(s + [x]) == ElementsOf(s) + {x}
  {
    assert (s + [x])[|s|] == x;
    forall k | 0 <= k < |s| ensures (s + [x])[k] == s[k] { }
  }

  /** A sequence without repetitions has as many distinct elements as entries. */
  lemma {:induction false} DistinctCount<T>(s: seq<T>)
    requires forall a, b :: 0 <= a < b < |s| ==> s[a] != s[b]
    ensures |ElementsOf(s)| == |s|
  {
    if s != [] {
      var t := s[..|s| - 1];
      DistinctCount(t);
      assert s == t + [s[|s| - 1]];
      ElementsOfAppend(t, s[|s| - 1]);
      assert s[|s| - 1] !in ElementsOf(t);
    }
  }

  /** One step of the award loop: the k-th character gains `amount`; the others in the
      list and the bystanders, whose state is apart from it, keep their progression. */
  method GiveShare(gcs: seq<Character>, k: nat, amount: int, ghost bystanders: set<Character>)
    requires k < |gcs|
    requires forall j :: 0 <= j < |gcs| ==> gcs[j].Valid()
    requires forall a, b :: 0 <= a < |gcs| && 0 <= b < |gcs| && a != b ==> gcs[a].Repr !! gcs[b].Repr
    requires forall c :: c in bystanders ==> c.Valid() && c.Repr !! gcs[k].Repr
    modifies {gcs[k]}`level, {gcs[k]}`skillPoints, {gcs[k]}`experienceAmount
    modifies gcs[k].StatsObjects()`health, gcs[k].StatsObjects()`flare, gcs[k].BaseArray()
    ensures forall j :: 0 <= j < |gcs| ==> gcs[j].Valid()
    ensures gcs[k].Progress() == Gain(old(gcs[k].Progress()), amount)
    ensures forall j :: 0 <= j < |gcs| && j != k ==> gcs[j].Progress() == old(gcs[j].Progress())
    ensures forall c :: c in bystanders ==> c.Valid() && c.Progress() == old(c.Progress())
  {
    var gcc := gcs[k];
    forall j | 0 <= j < |gcs| && j != k
      ensures gcs[j] != gcc && gcs[j].StatsObjects() !! gcc.StatsObjects() && gcs[j].Layers() !! gcc.BaseArray()
    {
      assert gcs[j].Repr !! gcs[k].Repr;
    }
    forall c | c in bystanders
      ensures c != gcc && c.StatsObjects() !! gcc.StatsObjects() && c.Layers() !! gcc.BaseArray()
    {
    }
    gcc.GiveCharacterExperience(amount);
    forall j | 0 <= j < |gcs| && j != k
      ensures gcs[j].Valid() && gcs[j].Progress() == old(gcs[j].Progress())
    {
      gcs[j].KeptProgress();
    }
    forall c | c in bystanders
      ensures c.Valid() && c.Progress() == old(c.Progress())
    {
      c.KeptProgress();
    }
  }

  /** The characters present in a world listing. */
  function Chars(world: seq<Candidate>): set<Character> {
    set i | 0 <= i < |world| && world[i].who != null :: world[i].who
  }

  /** The character of a world entry, if any. */
  function WhoSet(c: Candidate): set<Character> {
    if c.who != null then {c.who} else {}
  }

  /** The stats managers of some characters. */
  function StatsOf(cs: set<Character>): (r: set<StatsManager>)
    reads cs`stats
    ensures forall c :: c in cs ==> c.StatsObjects() <= r
  {
    set c | c in cs && c.stats != null :: c.stats
  }

  /** The base layer arrays of some characters. */
  function BaseArraysOf(cs: set<Character>): (r: set<array<real>>)
    reads cs`stats, StatsOf(cs)`baseStats
    ensures forall c :: c in cs ==> c.BaseArray() <= r
  {
    set c | c in cs && c.stats != null :: c.stats.baseStats
  }

  /** The mod layer arrays of some characters. */
  function ModArraysOf(cs: set<Character>): (r: set<array<real>>)
    reads cs`stats, StatsOf(cs)`modStats
    ensures forall c :: c in cs ==> c.ModArray() <= r
  {
    set c | c in cs && c.stats != null :: c.stats.modStats
  }

  /** The character behind the controller that instigated damage: a player controller's
      player character or an AI controller's character; none for anything else. */
  function InstigatorCharacter(instigator: InstigatorController): Character? {
    match instigator
    case PlayerControl(c) => c
    case MoveControl(c) => c
    case _ => null
  }

  class Character {
    var stats: StatsManager?
    /** The objects this character's state lives in: itself and its stats manager. */
    ghost var Repr: set<object>

    /** Role == ROLE_Authority. */
    var isAuthority: bool
    var hasAutoAttackManager: bool
    /** A controller is attached (IsValid(GetController())). */
    var hasController: bool
    var hasMovementComponent: bool
    var isPendingKill: bool
    var teamIndex: int

    var level: int
    var experienceAmount: int
    var skillPoints: int
    var baseExpReward: int
    var experienceRewardRange: real
    /** APlayerCharacter's credits. */
    var credits: int
    var mods: seq<ModItem>

    var bIsDying: bool
    var currentTarget: Character?
    var bAutoAttackLaunching: bool
    var bAutoAttackOnCooldown: bool

    // Timers: true while set and not cleared. A one-shot timer that fires is not
    // cleared by firing; its callback is the method of the same name.
    var aaRangeTimer: bool
    var aaLaunchTimer: bool
    var aaTimer: bool
    var healthRegenTimer: bool
    var flareRegenTimer: bool
    var ailmentTimer: bool
    var actionTimer: bool

    var currentAilment: AilmentInfo
    var ailmentQueue: seq<AilmentInfo>

    var lastTakeHitInfo: TakeHitInfo
    var lastTakeHitTimeTimeout: int

    /** The character's combat state. */
    function Combat(): CombatState
      reads this`bIsDying, this`lastTakeHitInfo, this`lastTakeHitTimeTimeout, this`currentTarget, this`bAutoAttackLaunching
      reads this`aaRangeTimer, this`aaLaunchTimer, this`aaTimer, this`healthRegenTimer, this`flareRegenTimer, this`ailmentTimer
    {
      CombatState(bIsDying, lastTakeHitInfo, lastTakeHitTimeTimeout, currentTarget, bAutoAttackLaunching,
                  aaRangeTimer, aaLaunchTimer, aaTimer, healthRegenTimer, flareRegenTimer, ailmentTimer)
    }

    /** The stats manager, as a set (empty when there is none). */
    function StatsObjects(): set<StatsManager>
      reads this`stats
    {
      if stats != null then {stats} else {}
    }

    /** The mod layer array, as a set (empty without a stats manager). */
    function ModArray(): set<array<real>>
      reads this`stats, StatsObjects()`modStats
    {
      if stats != null then {stats.modStats} else {}
    }

    /** The base layer array, as a set (empty without a stats manager). */
    function BaseArray(): set<array<real>>
      reads this`stats, StatsObjects()`baseStats
    {
      if stats != null then {stats.baseStats} else {}
    }

    /** The three layer arrays, as a set (empty without a stats manager). */
    function Layers(): set<array<real>>
      reads this`stats, StatsObjects()`baseStats, StatsObjects()`modStats, StatsObjects()`bonusStats
    {
      if stats != null then {stats.baseStats, stats.modStats, stats.bonusStats} else {}
    }

    /** This character's progression. */
    function Progress(): (p: Standing)
      reads this, StatsObjects(), ModArray(), Layers()
      requires Valid()
      ensures Fit(p)
    {
      Standing(level, experienceAmount, skillPoints, if stats != null then Some(stats.State()) else None)
    }

    ghost predicate Valid()
      reads this`Repr, this`stats, this`mods, this`bAutoAttackLaunching, this`bAutoAttackOnCooldown
      reads StatsObjects()`baseStats, StatsObjects()`modStats, StatsObjects()`bonusStats, StatsObjects()`effects
      reads StatsObjects()`nextEffectId, StatsObjects()`effectsMap, StatsObjects()`effectsList, ModArray()
    {
      StatsInSync() &&
      // the auto-attack state machine is never winding up and cooling down at once
      !(bAutoAttackLaunching && bAutoAttackOnCooldown)
    }

    /** The stats manager is well formed, its objects belong to this character, and its mod
        layer is the sum of the equipped mods' deltas. */
    ghost predicate StatsInSync()
      reads this`Repr, this`stats, this`mods
      reads StatsObjects()`baseStats, StatsObjects()`modStats, StatsObjects()`bonusStats, StatsObjects()`effects
      reads StatsObjects()`nextEffectId, StatsObjects()`effectsMap, StatsObjects()`effectsList, ModArray()
    {
      this in Repr &&
      (forall k :: 0 <= k < |mods| ==> |mods[k].deltaStats| == ES_MAX) &&
      (stats != null ==>
        stats in Repr && stats.baseStats in Repr && stats.modStats in Repr && stats.bonusStats in Repr &&
        stats.Valid() && stats.modStats[..] == ModLayer(DeltasOf(mods)))
    }

    /** A character as BeginPlay leaves it on the server, with a fresh stats manager. */
    constructor (authority: bool, team: int)
      ensures Valid() && fresh(Repr)
      ensures stats != null && level == 1 && experienceAmount == 0 && skillPoints == 0
      ensures baseExpReward == 21 && experienceRewardRange == 1500.0
      ensures isAuthority == authority && teamIndex == team && mods == [] && !bIsDying
      ensures !bAutoAttackLaunching && !bAutoAttackOnCooldown && currentAilment.newAilment == NoAilment
    {
      var sm := new StatsManager(authority);
      stats := sm;
      Repr := {this, sm, sm.baseStats, sm.modStats, sm.bonusStats};
      isAuthority := authority;
      hasAutoAttackManager, hasController, hasMovementComponent, isPendingKill := true, true, true, false;
      teamIndex := team;
      level, experienceAmount, skillPoints := 1, 0, 0;
      baseExpReward, experienceRewardRange := 21, 1500.0;
      credits, mods := 0, [];
      bIsDying, currentTarget := false, null;
      bAutoAttackLaunching, bAutoAttackOnCooldown := false, false;
      aaRangeTimer, aaLaunchTimer, aaTimer := false, false, false;
      healthRegenTimer, flareRegenTimer, ailmentTimer, actionTimer := false, false, false, false;
      currentAilment := AilmentInfo(NoAilment, "", 0.0, Vec3(0.0, 0.0, 0.0));
      ailmentQueue := [];
      lastTakeHitInfo := TakeHitInfo(0.0, null, 0, OtherDamage, false);
      lastTakeHitTimeTimeout := 0;
      assert ModLayer(DeltasOf([])) == sm.modStats[..];
    }

    predicate IsAlive()
      reads this`bIsDying
    {
      !bIsDying
    }

    /** Stores a hit for replication, coalescing it with the stored one as MergeHit says. */
    method ReplicateHit(damage: real, kind: DamageKind, instigatingPawn: Character?, damageCauser: ActorId,
                        bKilled: bool, nowMs: int)
      modifies this`lastTakeHitInfo, this`lastTakeHitTimeTimeout
      ensures var u := MergeHit(old(lastTakeHitInfo), old(lastTakeHitTimeTimeout), damage, kind,
                                instigatingPawn, damageCauser, bKilled, nowMs);
        if u.Dropped? then lastTakeHitInfo == old(lastTakeHitInfo) && lastTakeHitTimeTimeout == old(lastTakeHitTimeTimeout)
        else lastTakeHitInfo == u.info && lastTakeHitTimeTimeout == u.timeout
      ensures Combat() == Replicated(old(Combat()), MergeHit(old(lastTakeHitInfo), old(lastTakeHitTimeTimeout), damage, kind,
                                                             instigatingPawn, damageCauser, bKilled, nowMs))
    {
      var timeoutTime := nowMs + HIT_WINDOW_MS;
      var total := damage;
      if instigatingPawn == lastTakeHitInfo.pawnInstigator && lastTakeHitTimeTimeout == timeoutTime {
        if bKilled && lastTakeHitInfo.killed {
          return;
        }
        total := total + lastTakeHitInfo.actualDamage;
      }
      lastTakeHitInfo := TakeHitInfo(total, instigatingPawn, damageCauser, kind, bKilled);
      lastTakeHitTimeTimeout := timeoutTime;
    }

    /** Movement is blocked exactly while a stun or a knockup is active. */
    predicate CanMove()
      reads this
      ensures CanMove() <==> currentAilment.newAilment == NoAilment
    {
      currentAilment.newAilment != Knockup && currentAilment.newAilment != Stun
    }

    /** Auto attacks need no active ailment and no running action. */
    predicate CanAutoAttack()
      reads this
      ensures CanAutoAttack() ==> CanMove()
      ensures CanAutoAttack() <==> CanMove() && !actionTimer
    {
      currentAilment.newAilment == NoAilment && !actionTimer
    }

    /** Skills are gated exactly like auto attacks. */
    predicate CanPerformSkills()
      reads this
      ensures CanPerformSkills() <==> CanAutoAttack()
    {
      currentAilment.newAilment == NoAilment && !actionTimer
    }

    /** The current target is valid (set and not pending kill) and alive, and this
        character has a controller. */
    predicate TargetValid()
      reads this, currentTarget
    {
      currentTarget != null && !currentTarget.isPendingKill && hasController && !currentTarget.bIsDying
    }

    /** StartAutoAttack may act: a target, an attack manager, stats, alive, not winding up. */
    predicate CanStartAttack()
      reads this, currentTarget
    {
      currentTarget != null && !currentTarget.isPendingKill && hasAutoAttackManager && stats != null &&
      !bIsDying && !bAutoAttackLaunching
    }

    /** The attack range, inclusive, from the current stat value. */
    predicate InRange(distance: real)
      reads this, stats, stats.baseStats, stats.modStats, stats.bonusStats
      requires stats != null && stats.Valid()
    {
      distance <= stats.GetCurrentValueForStat(AARange)
    }

    /** Starts the range poll and, in range and off cooldown, winds up an attack. The 2-D
        distance to the target is a parameter. */
    method StartAutoAttack(distance: real)
      requires Valid()
      modifies this`aaRangeTimer, this`aaLaunchTimer, this`bAutoAttackLaunching
      ensures Valid()
      ensures !old(CanStartAttack()) ==>
        aaRangeTimer == old(aaRangeTimer) && aaLaunchTimer == old(aaLaunchTimer) && bAutoAttackLaunching == old(bAutoAttackLaunching)
      ensures old(CanStartAttack()) ==> aaRangeTimer
      ensures bAutoAttackLaunching == (old(bAutoAttackLaunching) ||
        (old(CanStartAttack()) && !bAutoAttackOnCooldown && old(InRange(distance))))
      ensures aaLaunchTimer == (old(aaLaunchTimer) ||
        (old(CanStartAttack()) && !bAutoAttackOnCooldown && old(InRange(distance))))
    {
      if currentTarget == null || currentTarget.isPendingKill || !hasAutoAttackManager || stats == null || !IsAlive() {
        return;
      }
      if bAutoAttackLaunching {
        return;
      }
      if !aaRangeTimer {
        aaRangeTimer := true;
      }
      if bAutoAttackOnCooldown {
        return;
      }
      if distance <= stats.GetCurrentValueForStat(AARange) {
        aaLaunchTimer := true;
        bAutoAttackLaunching := true;
      }
    }

    /** The wind-up timer's callback: with a valid live target, while this character is not
        pending kill, it rolls the crit and delivers the hit (a projectile carries the crit
        damage, instant damage is plain attack), then cools down and stops the range poll;
        otherwise it drops the target. The roll stands for FMath::RandRange(0, 100) and
        `projectile` for the attack manager's current attack kind. */
    method LaunchAutoAttack(crit: int, projectile: bool) returns (hit: AutoAttackHit)
      requires Valid() && 0 <= crit <= 100
      requires TargetValid() && !isPendingKill ==> stats != null && hasAutoAttackManager
      modifies this`currentTarget, this`bAutoAttackLaunching, this`bAutoAttackOnCooldown, this`aaTimer, this`aaRangeTimer
      ensures Valid()
      ensures !old(TargetValid() && !isPendingKill) ==>
        hit == NoHit && currentTarget == null && !bAutoAttackLaunching &&
        bAutoAttackOnCooldown == old(bAutoAttackOnCooldown) && aaTimer == old(aaTimer) && aaRangeTimer == old(aaRangeTimer)
      ensures old(TargetValid() && !isPendingKill) ==>
        currentTarget == old(currentTarget) && !bAutoAttackLaunching && bAutoAttackOnCooldown && aaTimer && !aaRangeTimer &&
        hit == old(if projectile
                   then ProjectileHit(currentTarget, CritDamage(stats.GetCurrentValueForStat(Atk),
                          stats.GetCurrentValueForStat(CritChance), stats.GetCurrentValueForStat(CritRatio), crit))
                   else InstantHit(currentTarget, stats.GetCurrentValueForStat(Atk)))
    {
      if currentTarget == null || currentTarget.isPendingKill || isPendingKill || !hasController || !currentTarget.IsAlive() {
        currentTarget, bAutoAttackLaunching := null, false;
        return NoHit;
      }

      var atk := stats.GetCurrentValueForStat(Atk);
      var dmg := CritDamage(atk, stats.GetCurrentValueForStat(CritChance), stats.GetCurrentValueForStat(CritRatio), crit);
      if projectile {
        hit := ProjectileHit(currentTarget, dmg);
      } else {
        // the instant path deals the plain attack value, so it never crits
        hit := InstantHit(currentTarget, atk);
      }

      bAutoAttackLaunching, aaTimer, bAutoAttackOnCooldown, aaRangeTimer := false, true, true, false;
    }

    /** The range poll's callback: drops a dead or missing target, cancels a wind-up when
        the target is out of range, and winds up when it is in range and the attack is idle. */
    method CheckAutoAttack(distance: real)
      requires Valid()
      requires TargetValid() ==> stats != null
      requires hasAutoAttackManager ||
        (TargetValid() && stats != null && InRange(distance) && (bAutoAttackLaunching || bAutoAttackOnCooldown))
      modifies this`currentTarget, this`aaLaunchTimer, this`bAutoAttackLaunching
      ensures Valid()
      ensures !old(TargetValid()) ==> currentTarget == null && !aaLaunchTimer && !bAutoAttackLaunching
      ensures old(TargetValid()) && !old(InRange(distance)) ==>
        currentTarget == old(currentTarget) && !aaLaunchTimer && !bAutoAttackLaunching
      ensures old(TargetValid()) && old(InRange(distance)) ==>
        currentTarget == old(currentTarget) &&
        bAutoAttackLaunching == (old(bAutoAttackLaunching) || !bAutoAttackOnCooldown) &&
        aaLaunchTimer == (old(aaLaunchTimer) || (!old(bAutoAttackLaunching) && !bAutoAttackOnCooldown))
    {
      if currentTarget == null || currentTarget.isPendingKill || !hasController || !currentTarget.IsAlive() {
        currentTarget := null;
        aaLaunchTimer := false;
        bAutoAttackLaunching := false;
        return;
      }

      if distance > stats.GetCurrentValueForStat(AARange) {
        aaLaunchTimer := false;
        bAutoAttackLaunching := false;
      } else if !bAutoAttackLaunching && !bAutoAttackOnCooldown {
        aaLaunchTimer := true;
        bAutoAttackLaunching := true;
      }
    }

    /** The cooldown timer's callback: the attack is idle again and, with a target, starts
        over. */
    method OnFinishAATimer(distance: real)
      requires Valid()
      modifies this`bAutoAttackOnCooldown, this`bAutoAttackLaunching, this`aaRangeTimer, this`aaLaunchTimer
      ensures Valid() && !bAutoAttackOnCooldown
      ensures var ready := currentTarget != null && !currentTarget.isPendingKill && hasAutoAttackManager && stats != null && !bIsDying;
        bAutoAttackLaunching == (ready && old(stats != null && stats.Valid() && InRange(distance))) &&
        aaLaunchTimer == (old(aaLaunchTimer) || bAutoAttackLaunching) &&
        aaRangeTimer == (old(aaRangeTimer) || ready)
    {
      bAutoAttackOnCooldown := false;
      bAutoAttackLaunching := false;
      if currentTarget != null && !currentTarget.isPendingKill {
        StartAutoAttack(distance);
      }
    }

    method ResetAutoAttack(distance: real)
      requires Valid()
      modifies this`bAutoAttackOnCooldown, this`bAutoAttackLaunching, this`aaRangeTimer, this`aaLaunchTimer
      ensures Valid() && !bAutoAttackOnCooldown
      ensures var ready := currentTarget != null && !currentTarget.isPendingKill && hasAutoAttackManager && stats != null && !bIsDying;
        bAutoAttackLaunching == (ready && old(stats != null && stats.Valid() && InRange(distance))) &&
        aaLaunchTimer == (old(aaLaunchTimer) || bAutoAttackLaunching) &&
        aaRangeTimer == (old(aaRangeTimer) || ready)
    {
      OnFinishAATimer(distance);
    }

    /** Drops the target, cancels the wind-up and the range poll. */
    method StopAutoAttack()
      requires Valid() && hasAutoAttackManager
      modifies this`currentTarget, this`aaLaunchTimer, this`aaRangeTimer, this`bAutoAttackLaunching
      ensures Valid()
      ensures currentTarget == null && !aaLaunchTimer && !aaRangeTimer && !bAutoAttackLaunching
      ensures Combat() == old(Combat()).(target := null, launching := false, aaRangeTimer := false, aaLaunchTimer := false)
    {
      currentTarget := null;
      aaLaunchTimer := false;
      aaRangeTimer := false;
      bAutoAttackLaunching := false;
    }

    function GetNextLevelExperience(): (r: int)
      reads this
      ensures level + 1 > MAX_LEVEL ==> r == 0
      ensures 0 <= level && level + 1 <= MAX_LEVEL ==> 0 <= r && r * EXP_CONST * EXP_CONST <= (level + 1) * (level + 1)
    {
      NextLevelExperience(level)
    }

    /** A valid character none of whose objects changed keeps its progression. */
    twostate lemma KeptProgress()
      requires old(Valid()) && unchanged(this)
      requires old(stats != null) ==>
        unchanged(old(stats), old(stats.baseStats), old(stats.modStats), old(stats.bonusStats))
      ensures Valid() && Progress() == old(Progress())
    {
    }

    /** One level up: level and skill points rise by one and the stats grow. */
    method LevelUp()
      requires Valid()
      modifies this`level, this`skillPoints, StatsObjects()`health, StatsObjects()`flare, BaseArray()
      ensures Valid()
      ensures Progress() == Promoted(old(Progress()))
    {
      level := level + 1;
      skillPoints := skillPoints + 1;
      if stats != null {
        stats.CharacterLevelUp();
      }
    }

    /** Adds experience and levels up at most once; at the level cap experience is pinned
        to EXP_CONST instead. */
    method GiveCharacterExperience(amount: int)
      requires Valid()
      modifies this`level, this`skillPoints, this`experienceAmount, StatsObjects()`health, StatsObjects()`flare, BaseArray()
      ensures Valid()
      ensures Progress() == Gain(old(Progress()), amount)
    {
      ghost var before := Progress();
      if level < MAX_LEVEL {
        experienceAmount := experienceAmount + amount;
        assert Progress() == before.(experience := experienceAmount);
        if experienceAmount >= GetNextLevelExperience() {
          LevelUp();
        }
      } else {
        experienceAmount := EXP_CONST;
      }
    }

    /** Applies an ailment on the server: queued behind an active one, otherwise made
        current and timed (the timer is only set when a movement component exists). */
    method GiveCharacterAilment(info: AilmentInfo)
      modifies this`currentAilment, this`ailmentQueue, this`ailmentTimer
      ensures !isAuthority ==>
        currentAilment == old(currentAilment) && ailmentQueue == old(ailmentQueue) && ailmentTimer == old(ailmentTimer)
      ensures isAuthority && old(currentAilment.newAilment) != NoAilment ==>
        currentAilment == old(currentAilment) && ailmentQueue == old(ailmentQueue) + [info] && ailmentTimer == old(ailmentTimer)
      ensures isAuthority && old(currentAilment.newAilment) == NoAilment ==>
        currentAilment == info && ailmentQueue == old(ailmentQueue) &&
        ailmentTimer == (old(ailmentTimer) || hasMovementComponent)
    {
      if !isAuthority {
        return;
      }
      if currentAilment.newAilment != NoAilment {
        ailmentQueue := ailmentQueue + [info];
        return;
      }
      currentAilment := info;
      if !hasMovementComponent {
        return;
      }
      ailmentTimer := true;
    }

    /** The ailment timer's callback: the active ailment ends and the oldest queued one,
        unless it is a no-op ailment, is applied. */
    method CurrentAilmentFinished()
      modifies this`currentAilment, this`ailmentQueue, this`ailmentTimer
      ensures old(ailmentQueue) == [] ==>
        ailmentQueue == [] && currentAilment == old(currentAilment).(newAilment := NoAilment) && !ailmentTimer
      ensures old(ailmentQueue) != [] ==> ailmentQueue == old(ailmentQueue)[1..]
      ensures old(ailmentQueue) != [] && (old(ailmentQueue)[0].newAilment == NoAilment || !isAuthority) ==>
        currentAilment == old(currentAilment).(newAilment := NoAilment) && !ailmentTimer
      ensures old(ailmentQueue) != [] && old(ailmentQueue)[0].newAilment != NoAilment && isAuthority ==>
        currentAilment == old(ailmentQueue)[0] && ailmentTimer == hasMovementComponent
    {
      ailmentTimer := false;
      currentAilment := currentAilment.(newAilment := NoAilment);
      if ailmentQueue != [] {
        var newInfo := ailmentQueue[0];
        ailmentQueue := ailmentQueue[1..];
        if newInfo.newAilment != NoAilment {
          GiveCharacterAilment(newInfo);
        }
      }
    }

    /** Equips a mod (a null one is not added) and rebuilds the mod layer. */
    method AddMod(newMod: Option<ModItem>)
      requires Valid() && stats != null
      requires newMod.Some? ==> |newMod.value.deltaStats| == ES_MAX
      modifies this`mods, stats.modStats
      ensures Valid()
      ensures mods == if newMod.Some? then old(mods) + [newMod.value] else old(mods)
      ensures stats.modStats[..] == ModLayer(DeltasOf(mods))
    {
      if newMod.Some? {
        mods := mods + [newMod.value];
      }
      stats.UpdateModStats(DeltasOf(mods));
    }

    /** Unequips the mod at `index` and rebuilds the mod layer; an index out of range does
        nothing. */
    method RemoveMod(index: int)
      requires Valid()
      requires 0 <= index < |mods| ==> stats != null
      modifies this`mods, if stats != null then {stats.modStats} else {}
      ensures Valid()
      ensures !(0 <= index < |old(mods)|) ==> mods == old(mods)
      ensures 0 <= index < |old(mods)| ==> mods == old(mods)[..index] + old(mods)[index + 1..]
    {
      if index < 0 || index >= |mods| {
        return;
      }
      mods := mods[..index] + mods[index + 1..];
      stats.UpdateModStats(DeltasOf(mods));
    }

    /** APlayerCharacter::ChangeCredits. */
    method ChangeCredits(delta: int)
      modifies this`credits
      ensures credits == old(credits) + delta
    {
      credits := credits + delta;
    }

    /** The health regen timer's callback: a quarter of the regen rate is added while that
        stays below the maximum; otherwise health is set to the maximum and the timer stops.
        Either way health ends at most at the maximum. */
    method HealthRegen()
      requires Valid() && stats != null
      modifies stats`health, this`healthRegenTimer
      ensures Valid()
      ensures var hr := old(stats.GetCurrentValueForStat(HPRegen)) / 4.0;
        var maxHP := stats.GetCurrentValueForStat(HP);
        (old(stats.health) + hr < maxHP ==> stats.health == old(stats.health) + hr && healthRegenTimer == old(healthRegenTimer)) &&
        (old(stats.health) + hr >= maxHP ==> stats.health == maxHP && !healthRegenTimer)
      ensures stats.health <= stats.GetCurrentValueForStat(HP)
    {
      var hr := stats.GetCurrentValueForStat(HPRegen) / 4.0;
      if stats.health + hr < stats.GetCurrentValueForStat(HP) {
        stats.RemoveHealth(hr * -1.0);
      } else {
        stats.SetMaxHealth();
        healthRegenTimer := false;
      }
    }

    /** The flare regen timer's callback, the same for flare. */
    method FlareRegen()
      requires Valid() && stats != null
      modifies stats`flare, this`flareRegenTimer
      ensures Valid()
      ensures var fr := old(stats.GetCurrentValueForStat(Stats.FlareRegen)) / 4.0;
        var maxFlare := stats.GetCurrentValueForStat(Flare);
        (old(stats.flare) + fr < maxFlare ==> stats.flare == old(stats.flare) + fr && flareRegenTimer == old(flareRegenTimer)) &&
        (old(stats.flare) + fr >= maxFlare ==> stats.flare == maxFlare && !flareRegenTimer)
      ensures stats.flare <= stats.GetCurrentValueForStat(Flare)
    {
      var fr := stats.GetCurrentValueForStat(Stats.FlareRegen) / 4.0;
      if stats.flare + fr < stats.GetCurrentValueForStat(Flare) {
        stats.RemoveFlare(fr * -1.0);
      } else {
        stats.SetMaxFlare();
        flareRegenTimer := false;
      }
    }

    /** The world's characters are well formed and keep their state apart from each other
        and from this character. */
    ghost predicate WorldReady(world: seq<Candidate>)
      reads this`Repr, Chars(world)`Repr, Chars(world)`stats, Chars(world)`mods
      reads Chars(world)`bAutoAttackLaunching, Chars(world)`bAutoAttackOnCooldown
      reads StatsOf(Chars(world))`baseStats, StatsOf(Chars(world))`modStats, StatsOf(Chars(world))`bonusStats
      reads StatsOf(Chars(world))`effects, StatsOf(Chars(world))`nextEffectId, StatsOf(Chars(world))`effectsMap
      reads StatsOf(Chars(world))`effectsList, ModArraysOf(Chars(world))
    {
      (forall c :: c in Chars(world) ==>
        (c.stats == null || (c.stats in c.Repr && c.stats.modStats in c.Repr)) &&
        c.Valid() && (c != this ==> c.Repr !! Repr)) &&
      (forall c, d :: c in Chars(world) && d in Chars(world) && c != d ==> c.Repr !! d.Repr)
    }

    /** A character OnDeath rewards: a valid player character of another team within the
        experience reward range. */
    predicate Rewarded(c: Candidate)
      reads this`teamIndex, this`experienceRewardRange, WhoSet(c)`isPendingKill, WhoSet(c)`teamIndex
    {
      c.who != null && RewardedCharacter(c.who, c.distSq)
    }

    predicate RewardedCharacter(who: Character, distSq: real)
      reads this`teamIndex, this`experienceRewardRange, who`isPendingKill, who`teamIndex
    {
      !who.isPendingKill && distSq <= experienceRewardRange * experienceRewardRange && teamIndex != who.teamIndex
    }

    ghost function RecipientSet(world: seq<Candidate>): set<Character>
      reads this`teamIndex, this`experienceRewardRange, Chars(world)`isPendingKill, Chars(world)`teamIndex
    {
      set i | 0 <= i < |world| && Rewarded(world[i]) :: world[i].who
    }

    /** The characters OnDeath rewards, each once, in world order. */
    method ExperienceRecipients(world: seq<Candidate>) returns (gcs: seq<Character>)
      ensures ElementsOf(gcs) == RecipientSet(world)
      ensures forall a, b :: 0 <= a < b < |gcs| ==> gcs[a] != gcs[b]
      ensures forall k :: 0 <= k < |gcs| ==> gcs[k] != this && gcs[k] in Chars(world)
    {
      gcs := [];
      for i := 0 to |world|
        invariant ElementsOf(gcs) == set j | 0 <= j < i && Rewarded(world[j]) :: world[j].who
        invariant forall a, b :: 0 <= a < b < |gcs| ==> gcs[a] != gcs[b]
        invariant forall k :: 0 <= k < |gcs| ==> gcs[k] != this && gcs[k] in Chars(world)
      {
        ghost var seen := set j | 0 <= j < i && Rewarded(world[j]) :: world[j].who;
        assert (set j | 0 <= j < i + 1 && Rewarded(world[j]) :: world[j].who) ==
               seen + (if Rewarded(world[i]) then {world[i].who} else {});
        var gc := world[i].who;
        if gc != null && !gc.isPendingKill {
          var distsq := world[i].distSq;
          if distsq <= experienceRewardRange * experienceRewardRange && teamIndex != gc.teamIndex {
            assert gc in Chars(world);
            if gc !in gcs {
              ElementsOfAppend(gcs, gc);
              gcs := gcs + [gc];
            }
          }
        }
      }
    }

    /** Characters drawn from a ready world, other than this one, keep their state apart
        from each other and from this character. */
    lemma RecipientsApart(world: seq<Candidate>, gcs: seq<Character>)
      requires Valid() && WorldReady(world)
      requires forall k :: 0 <= k < |gcs| ==> gcs[k] != this && gcs[k] in Chars(world)
      requires forall a, b :: 0 <= a < b < |gcs| ==> gcs[a] != gcs[b]
      ensures forall k :: 0 <= k < |gcs| ==> gcs[k].Valid() && this !in gcs[k].Repr && gcs[k].Repr !! Repr
      ensures forall a, b :: 0 <= a < |gcs| && 0 <= b < |gcs| && a != b ==> gcs[a].Repr !! gcs[b].Repr
    {
      forall a, b | 0 <= a < |gcs| && 0 <= b < |gcs| && a != b ensures gcs[a].Repr !! gcs[b].Repr {
        if a > b {
          assert gcs[b] != gcs[a];
        }
      }
    }

    /** OnDeath's award loop: each recipient gets the share computed from its own level,
        the victim's level and the number of recipients. */
    method AwardExperience(gcs: seq<Character>, ghost bystanders: set<Character>)
      requires Valid() && |gcs| > 0
      requires forall k :: 0 <= k < |gcs| ==> gcs[k].Valid() && this !in gcs[k].Repr && gcs[k].Repr !! Repr
      requires forall a, b :: 0 <= a < |gcs| && 0 <= b < |gcs| && a != b ==> gcs[a].Repr !! gcs[b].Repr
      requires forall c :: c in bystanders ==> c.Valid()
      requires forall c, k :: c in bystanders && 0 <= k < |gcs| ==> c.Repr !! gcs[k].Repr
      modifies ElementsOf(gcs)`level, ElementsOf(gcs)`skillPoints, ElementsOf(gcs)`experienceAmount
      modifies StatsOf(ElementsOf(gcs))`health, StatsOf(ElementsOf(gcs))`flare, BaseArraysOf(ElementsOf(gcs))
      ensures Valid()
      ensures forall k :: 0 <= k < |gcs| ==> gcs[k].Valid()
      ensures forall k :: 0 <= k < |gcs| ==>
        gcs[k].Progress() == Gain(old(gcs[k].Progress()), ExperienceShare(baseExpReward, level, old(gcs[k].level), |gcs|))
      ensures forall c :: c in bystanders ==> c.Valid() && c.Progress() == old(c.Progress())
    {
      var n := |gcs|;
      for k := 0 to n
        invariant Valid()
        invariant forall j :: 0 <= j < n ==> gcs[j].Valid()
        invariant forall j :: k <= j < n ==> gcs[j].Progress() == old(gcs[j].Progress())
        invariant forall j :: 0 <= j < k ==>
          gcs[j].Progress() == Gain(old(gcs[j].Progress()), ExperienceShare(baseExpReward, level, old(gcs[j].level), n))
        invariant forall c :: c in bystanders ==> c.Valid() && c.Progress() == old(c.Progress())
      {
        var gcc := gcs[k];
        var amount := if gcc.level == 1 then TruncDiv(baseExpReward, n)
                      else TruncReal((baseExpReward as real + level as real * 2.45) / n as real);
        assert amount == ExperienceShare(baseExpReward, level, old(gcs[k].level), n);
        GiveShare(gcs, k, amount, bystanders + {this});
      }
    }

    /** The characters of a world listing other than this one. */
    function Others(world: seq<Candidate>): set<Character> {
      Chars(world) - {this}
    }

    /** What this character's death does to the rest of the world: every other character
        stays valid; when the reward is handed out, each recipient gains its share (computed
        from the victim's level, the recipient's level and the number of recipients) and
        every other character keeps its progression; otherwise every other character keeps
        its progression. */
    twostate predicate KillRewarded(world: seq<Candidate>, rewarded: bool)
      requires old(WorldReady(world))
      reads *
    {
      forall c :: c in Others(world) ==>
        c.Valid() &&
        c.Progress() ==
          if rewarded && c in old(RecipientSet(world))
          then old(Gain(c.Progress(), ExperienceShare(baseExpReward, level, c.level, |RecipientSet(world)|)))
          else old(c.Progress())
    }

    /** The server's share of a kill: the rewarded characters of the world listing each get
        an even share of the experience reward; nothing else in the world changes. */
    method ShareKillReward(world: seq<Candidate>)
      requires Valid() && WorldReady(world)
      modifies Others(world)`level, Others(world)`skillPoints, Others(world)`experienceAmount
      modifies StatsOf(Others(world))`health, StatsOf(Others(world))`flare, BaseArraysOf(Others(world))
      ensures Valid()
      ensures KillRewarded(world, true)
    {
      ghost var rs := RecipientSet(world);
      var gcs := ExperienceRecipients(world);
      assert ElementsOf(gcs) == rs;
      DistinctCount(gcs);
      RecipientsApart(world, gcs);
      ghost var bystanders := Others(world) - rs;
      forall c, k | c in bystanders && 0 <= k < |gcs| ensures c.Repr !! gcs[k].Repr {
        assert gcs[k] in Chars(world);
      }
      if |gcs| == 0 {
        return;
      }
      AwardExperience(gcs, bystanders);
      forall c | c in rs
        ensures c.Valid() && c.Progress() == old(Gain(c.Progress(), ExperienceShare(baseExpReward, level, c.level, |rs|)))
      {
        var k :| 0 <= k < |gcs| && gcs[k] == c;
      }
    }

    /** The death sequence: marks the character dying, on the server replicates the lethal
        hit and splits the experience reward evenly among the rewarded characters (shares
        by the victim's level), then stops regeneration and the auto attack. */
    method OnDeath(killingDamage: real, kind: DamageKind, pawnInstigator: Character?, causer: ActorId,
                   world: seq<Candidate>, nowMs: int)
      requires Valid() && WorldReady(world)
      requires !bIsDying ==> hasAutoAttackManager
      modifies this`bIsDying, this`lastTakeHitInfo, this`lastTakeHitTimeTimeout, this`flareRegenTimer, this`healthRegenTimer
      modifies this`currentTarget, this`aaLaunchTimer, this`aaRangeTimer, this`bAutoAttackLaunching
      modifies Others(world)`level, Others(world)`skillPoints, Others(world)`experienceAmount
      modifies StatsOf(Others(world))`health, StatsOf(Others(world))`flare, BaseArraysOf(Others(world))
      ensures Valid()
      ensures old(bIsDying) ==> unchanged(this)
      ensures !old(bIsDying) ==>
        bIsDying && currentTarget == null && !bAutoAttackLaunching && !aaLaunchTimer && !aaRangeTimer &&
        !healthRegenTimer && !flareRegenTimer
      ensures !old(bIsDying) && isAuthority ==>
        var u := MergeHit(old(lastTakeHitInfo), old(lastTakeHitTimeTimeout), killingDamage, kind, pawnInstigator, causer, true, nowMs);
        (u.Dropped? ==> lastTakeHitInfo == old(lastTakeHitInfo)) && (u.Stored? ==> lastTakeHitInfo == u.info)
      ensures !old(bIsDying) ==>
        Combat() == Dying(if isAuthority then Replicated(old(Combat()), MergeHit(old(lastTakeHitInfo), old(lastTakeHitTimeTimeout),
                                                                                killingDamage, kind, pawnInstigator, causer, true, nowMs))
                          else old(Combat()))
      ensures KillRewarded(world, !old(bIsDying) && isAuthority)
    {
      if bIsDying {
        return;
      }
      // The reward touches only the recipients and reads none of the state MarkDying
      // changes, so it is applied first.
      if isAuthority {
        ShareKillReward(world);
      }
      label Rewarded:
      MarkDying(killingDamage, kind, pawnInstigator, causer, nowMs);
      forall c | c in Others(world) ensures c.Valid() && c.Progress() == old@Rewarded(c.Progress()) {
        c.KeptProgress@Rewarded();
      }
    }

    /** The dying character's own part of the death sequence: the dying flag, on the server
        the replicated lethal hit, the stopped regeneration timers and the stopped auto attack. */
    method MarkDying(killingDamage: real, kind: DamageKind, pawnInstigator: Character?, causer: ActorId, nowMs: int)
      requires Valid() && hasAutoAttackManager
      modifies this`bIsDying, this`lastTakeHitInfo, this`lastTakeHitTimeTimeout, this`flareRegenTimer, this`healthRegenTimer
      modifies this`currentTarget, this`aaLaunchTimer, this`aaRangeTimer, this`bAutoAttackLaunching
      ensures Valid()
      ensures isAuthority ==>
        Combat() == Dying(Replicated(old(Combat()), MergeHit(old(lastTakeHitInfo), old(lastTakeHitTimeTimeout),
                                                             killingDamage, kind, pawnInstigator, causer, true, nowMs)))
      ensures !isAuthority ==> Combat() == Dying(old(Combat()))
    {
      bIsDying := true;
      if isAuthority {
        ReplicateHit(killingDamage, kind, pawnInstigator, causer, true, nowMs);
      }
      flareRegenTimer := false;
      healthRegenTimer := false;
      StopAutoAttack();
    }

    /** A hit that did not kill: replicated on the server unless this character is already
        destroyed. The HUD notification is not modelled. */
    method PlayHit(damageTaken: real, kind: DamageKind, pawnInstigator: Character?, causer: ActorId, nowMs: int)
      modifies this`lastTakeHitInfo, this`lastTakeHitTimeTimeout
      ensures isPendingKill || !isAuthority ==>
        lastTakeHitInfo == old(lastTakeHitInfo) && lastTakeHitTimeTimeout == old(lastTakeHitTimeTimeout)
      ensures !isPendingKill && isAuthority ==>
        var u := MergeHit(old(lastTakeHitInfo), old(lastTakeHitTimeTimeout), damageTaken, kind, pawnInstigator, causer, false, nowMs);
        u.Stored? && lastTakeHitInfo == u.info && lastTakeHitTimeTimeout == u.timeout
      ensures Combat() == if isPendingKill || !isAuthority then old(Combat())
        else Replicated(old(Combat()), MergeHit(old(lastTakeHitInfo), old(lastTakeHitTimeTimeout), damageTaken, kind, pawnInstigator, causer, false, nowMs))
    {
      if isPendingKill {
        return;
      }
      if isAuthority {
        ReplicateHit(damageTaken, kind, pawnInstigator, causer, false, nowMs);
      }
    }

    /** CanDie: not already dying or destroyed, on the server, with a game mode and no level
        transition under way. */
    predicate CanDie(hasGameMode: bool, leavingMap: bool)
      reads this`bIsDying, this`isPendingKill, this`isAuthority
    {
      !(bIsDying || isPendingKill || !isAuthority || !hasGameMode || leavingMap)
    }

    /** Kills the character when CanDie allows: clears every timer and runs OnDeath. The
        killer pawn is passed in already resolved. */
    method Die(killingDamage: real, kind: DamageKind, killer: Character?, causer: ActorId,
               hasGameMode: bool, leavingMap: bool, world: seq<Candidate>, nowMs: int) returns (died: bool)
      requires Valid() && WorldReady(world)
      requires CanDie(hasGameMode, leavingMap) ==> hasAutoAttackManager
      modifies this`bIsDying, this`lastTakeHitInfo, this`lastTakeHitTimeTimeout, this`currentTarget, this`bAutoAttackLaunching
      modifies this`aaRangeTimer, this`aaLaunchTimer, this`aaTimer, this`healthRegenTimer, this`flareRegenTimer
      modifies this`ailmentTimer
      modifies Others(world)`level, Others(world)`skillPoints, Others(world)`experienceAmount
      modifies StatsOf(Others(world))`health, StatsOf(Others(world))`flare, BaseArraysOf(Others(world))
      ensures Valid()
      ensures died == old(CanDie(hasGameMode, leavingMap))
      ensures !died ==> unchanged(this)
      ensures died ==>
        bIsDying && currentTarget == null && !bAutoAttackLaunching &&
        !aaRangeTimer && !aaLaunchTimer && !aaTimer && !healthRegenTimer && !flareRegenTimer && !ailmentTimer
      ensures died ==>
        var u := MergeHit(old(lastTakeHitInfo), old(lastTakeHitTimeTimeout), killingDamage, kind, killer, causer, true, nowMs);
        (u.Dropped? ==> lastTakeHitInfo == old(lastTakeHitInfo)) && (u.Stored? ==> lastTakeHitInfo == u.info)
      ensures died ==>
        Combat() == TimersCleared(Dying(Replicated(old(Combat()), MergeHit(old(lastTakeHitInfo), old(lastTakeHitTimeTimeout),
                                                                          killingDamage, kind, killer, causer, true, nowMs))))
      ensures KillRewarded(world, died)
    {
      if !CanDie(hasGameMode, leavingMap) {
        return false;
      }
      // Every timer is cleared before OnDeath runs; OnDeath reads none of them, so clearing
      // them right after it leaves the same state.
      OnDeath(killingDamage, kind, killer, causer, world, nowMs);
      ClearAllTimers(Others(world));
      return true;
    }

    /** ClearAllTimersForObject: every timer bound to one of this character's callbacks.
        The action timer is set without a callback, so it is not among them. */
    method ClearAllTimers(ghost others: set<Character>)
      requires forall c :: c in others ==> c.Valid() && c != this
      modifies this`aaRangeTimer, this`aaLaunchTimer, this`aaTimer, this`healthRegenTimer, this`flareRegenTimer
      modifies this`ailmentTimer
      ensures !aaRangeTimer && !aaLaunchTimer && !aaTimer && !healthRegenTimer && !flareRegenTimer && !ailmentTimer
      ensures Combat() == TimersCleared(old(Combat()))
      ensures forall c :: c in others ==> c.Valid() && c.Progress() == old(c.Progress())
    {
      label Before:
      aaRangeTimer, aaLaunchTimer, aaTimer := false, false, false;
      healthRegenTimer, flareRegenTimer, ailmentTimer := false, false, false;
      forall c | c in others ensures c.Valid() && c.Progress() == old(c.Progress()) {
        c.KeptProgress@Before();
      }
    }

    /** The controller's character, when it is a player controller (none otherwise). */
    function PlayerSet(instigator: InstigatorController): set<Character> {
      if instigator.PlayerControl? && instigator.playerCharacter != null then {instigator.playerCharacter} else {}
    }

    /** TakeDamage returns 0 and changes nothing: off the server, without stats, when dying,
        when a player controller's character is on this team and friendly fire is off, or
        when no instigating character is known. AI-instigated damage is never filtered as
        friendly fire. */
    predicate DamageRejected(instigator: InstigatorController, canDamageFriendlies: bool)
      reads this`isAuthority, this`stats, this`bIsDying, this`teamIndex, PlayerSet(instigator)`teamIndex
    {
      !isAuthority || stats == null || bIsDying ||
      (!canDamageFriendlies && instigator.PlayerControl? && instigator.playerCharacter != null &&
       instigator.playerCharacter.teamIndex == teamIndex) ||
      InstigatorCharacter(instigator) == null
    }

    /** Applies damage on the server: after the rejections of DamageRejected the damage is
        mitigated; a hit that leaves health positive is subtracted and replicated, a lethal
        one zeroes health and runs Die; any damaging hit starts health regeneration while
        the character lives. The game mode's friendly-fire switch and match state are
        parameters. */
    method TakeDamage(damage: real, kind: DamageKind, instigator: InstigatorController, causer: ActorId,
                      canDamageFriendlies: bool, leavingMap: bool, world: seq<Candidate>, nowMs: int)
      returns (actual: real)
      requires Valid() && WorldReady(world)
      requires isAuthority && stats != null && !bIsDying && !canDamageFriendlies && instigator.PlayerControl? ==>
        instigator.playerCharacter != null
      requires (!DamageRejected(instigator, canDamageFriendlies) && !isPendingKill && !leavingMap &&
                var a := Mitigated(damage, kind, stats.GetCurrentValueForStat(Def), stats.GetCurrentValueForStat(SpDef));
                a > 0.0 && stats.health - a <= 0.0) ==> hasAutoAttackManager
      modifies StatsObjects()`health
      modifies this`bIsDying, this`lastTakeHitInfo, this`lastTakeHitTimeTimeout, this`currentTarget, this`bAutoAttackLaunching
      modifies this`aaRangeTimer, this`aaLaunchTimer, this`aaTimer, this`healthRegenTimer, this`flareRegenTimer
      modifies this`ailmentTimer
      modifies Others(world)`level, Others(world)`skillPoints, Others(world)`experienceAmount
      modifies StatsOf(Others(world))`health, StatsOf(Others(world))`flare, BaseArraysOf(Others(world))
      ensures Valid() && actual >= 0.0
      ensures old(DamageRejected(instigator, canDamageFriendlies)) ==>
        actual == 0.0 && unchanged(this) && unchanged(StatsObjects())
      ensures !old(DamageRejected(instigator, canDamageFriendlies)) ==>
        actual == old(Mitigated(damage, kind, stats.GetCurrentValueForStat(Def), stats.GetCurrentValueForStat(SpDef)))
      ensures actual == 0.0 ==> unchanged(this) && unchanged(StatsObjects())
      ensures actual > 0.0 ==> stats.health >= 0.0 && stats.health == (if old(stats.health) - actual > 0.0 then old(stats.health) - actual else 0.0)
      ensures actual > 0.0 && old(stats.health) - actual > 0.0 ==>
        !bIsDying && healthRegenTimer &&
        (!isPendingKill ==>
           var u := MergeHit(old(lastTakeHitInfo), old(lastTakeHitTimeTimeout), actual, kind, InstigatorCharacter(instigator), causer, false, nowMs);
           lastTakeHitInfo == u.info && lastTakeHitTimeTimeout == u.timeout)
      ensures actual > 0.0 && old(stats.health) - actual <= 0.0 ==>
        bIsDying == !(isPendingKill || leavingMap) &&
        (bIsDying ==>
           !healthRegenTimer && !flareRegenTimer && currentTarget == null &&
           var u := MergeHit(old(lastTakeHitInfo), old(lastTakeHitTimeTimeout), actual, kind, InstigatorCharacter(instigator), causer, true, nowMs);
           (u.Stored? ==> lastTakeHitInfo == u.info)) &&
        (!bIsDying ==> healthRegenTimer)
      ensures actual > 0.0 && old(stats.health) - actual > 0.0 ==>
        Combat() == (if isPendingKill then old(Combat())
          else Replicated(old(Combat()), MergeHit(old(lastTakeHitInfo), old(lastTakeHitTimeTimeout), actual, kind,
                                                  InstigatorCharacter(instigator), causer, false, nowMs))
          ).(healthRegenTimer := true)
      ensures actual > 0.0 && old(stats.health) - actual <= 0.0 && bIsDying ==>
        Combat() == TimersCleared(Dying(Replicated(old(Combat()), MergeHit(old(lastTakeHitInfo), old(lastTakeHitTimeTimeout), actual, kind,
                                                                          InstigatorCharacter(instigator), causer, true, nowMs))))
      ensures actual > 0.0 && old(stats.health) - actual <= 0.0 && !bIsDying ==> Combat() == old(Combat()).(healthRegenTimer := true)
      ensures KillRewarded(world, actual > 0.0 && old(stats.health) - actual <= 0.0 && bIsDying)
    {
      if !isAuthority {
        return 0.0;
      }
      if stats == null || !IsAlive() {
        return 0.0;
      }
      if !canDamageFriendlies && instigator.PlayerControl? && instigator.playerCharacter.teamIndex == teamIndex {
        return 0.0;
      }
      var damageCausingGC := InstigatorCharacter(instigator);
      if damageCausingGC == null {
        return 0.0;
      }

      actual := damage;
      if kind == PhysicalDamage && stats.GetCurrentValueForStat(Def) >= 0.0 {
        actual := actual - stats.GetCurrentValueForStat(Def);
      } else if kind == SpecialDamage && stats.GetCurrentValueForStat(SpDef) >= 0.0 {
        actual := actual - stats.GetCurrentValueForStat(SpDef);
      }
      actual := if actual > 0.0 then actual else 0.0;

      if actual > 0.0 {
        ApplyDamage(actual, kind, damageCausingGC, causer, leavingMap, world, nowMs);
      }
    }

    /** The part of TakeDamage that runs once the mitigated damage is positive: a surviving
        character loses that much health and plays the hit, a lethal hit runs Die and empties
        the health, and a living character whose health regen had stopped restarts it. */
    method ApplyDamage(actual: real, kind: DamageKind, gc: Character?, causer: ActorId,
                       leavingMap: bool, world: seq<Candidate>, nowMs: int)
      requires Valid() && WorldReady(world)
      requires actual > 0.0 && stats != null && isAuthority && !bIsDying
      requires stats.health - actual <= 0.0 && !isPendingKill && !leavingMap ==> hasAutoAttackManager
      modifies StatsObjects()`health
      modifies this`bIsDying, this`lastTakeHitInfo, this`lastTakeHitTimeTimeout, this`currentTarget, this`bAutoAttackLaunching
      modifies this`aaRangeTimer, this`aaLaunchTimer, this`aaTimer, this`healthRegenTimer, this`flareRegenTimer
      modifies this`ailmentTimer
      modifies Others(world)`level, Others(world)`skillPoints, Others(world)`experienceAmount
      modifies StatsOf(Others(world))`health, StatsOf(Others(world))`flare, BaseArraysOf(Others(world))
      ensures Valid()
      ensures old(stats.health - actual > 0.0) ==>
        stats.health == old(stats.health - actual) && !bIsDying && healthRegenTimer &&
        (!isPendingKill ==>
           var u := MergeHit(old(lastTakeHitInfo), old(lastTakeHitTimeTimeout), actual, kind, gc, causer, false, nowMs);
           lastTakeHitInfo == u.info && lastTakeHitTimeTimeout == u.timeout)
      ensures old(stats.health - actual <= 0.0) ==>
        stats.health == 0.0 &&
        bIsDying == !(isPendingKill || leavingMap) &&
        (bIsDying ==>
           !healthRegenTimer && !flareRegenTimer && currentTarget == null &&
           var u := MergeHit(old(lastTakeHitInfo), old(lastTakeHitTimeTimeout), actual, kind, gc, causer, true, nowMs);
           (u.Stored? ==> lastTakeHitInfo == u.info)) &&
        (!bIsDying ==> healthRegenTimer)
      ensures old(stats.health - actual > 0.0) ==>
        Combat() == (if isPendingKill then old(Combat())
          else Replicated(old(Combat()), MergeHit(old(lastTakeHitInfo), old(lastTakeHitTimeTimeout), actual, kind, gc, causer, false, nowMs))
          ).(healthRegenTimer := true)
      ensures old(stats.health - actual <= 0.0) && bIsDying ==>
        Combat() == TimersCleared(Dying(Replicated(old(Combat()), MergeHit(old(lastTakeHitInfo), old(lastTakeHitTimeTimeout),
                                                                          actual, kind, gc, causer, true, nowMs))))
      ensures old(stats.health - actual <= 0.0) && !bIsDying ==> Combat() == old(Combat()).(healthRegenTimer := true)
      ensures KillRewarded(world, old(stats.health - actual <= 0.0) && bIsDying)
    {
      forall c | c in Others(world) ensures c.stats != stats {
        assert c.Repr !! Repr;
      }
      if stats.health - actual > 0.0 {
        label Hit:
        SurviveHit(actual, kind, gc, causer, nowMs);
        forall c | c in Others(world) ensures c.Valid() && c.Progress() == old@Hit(c.Progress()) {
          c.KeptProgress@Hit();
        }
      } else {
        LethalHit(actual, kind, gc, causer, leavingMap, world, nowMs);
      }
    }

    /** A hit that empties the health: the character dies when it can, and otherwise
        restarts health regeneration. */
    method LethalHit(actual: real, kind: DamageKind, gc: Character?, causer: ActorId,
                     leavingMap: bool, world: seq<Candidate>, nowMs: int)
      requires Valid() && WorldReady(world)
      requires stats != null && isAuthority && !bIsDying && stats.health - actual <= 0.0
      requires !isPendingKill && !leavingMap ==> hasAutoAttackManager
      modifies StatsObjects()`health
      modifies this`bIsDying, this`lastTakeHitInfo, this`lastTakeHitTimeTimeout, this`currentTarget, this`bAutoAttackLaunching
      modifies this`aaRangeTimer, this`aaLaunchTimer, this`aaTimer, this`healthRegenTimer, this`flareRegenTimer
      modifies this`ailmentTimer
      modifies Others(world)`level, Others(world)`skillPoints, Others(world)`experienceAmount
      modifies StatsOf(Others(world))`health, StatsOf(Others(world))`flare, BaseArraysOf(Others(world))
      ensures Valid()
      ensures stats.health == 0.0 && bIsDying == !(isPendingKill || leavingMap)
      ensures bIsDying ==>
        !healthRegenTimer && !flareRegenTimer && currentTarget == null &&
        var u := MergeHit(old(lastTakeHitInfo), old(lastTakeHitTimeTimeout), actual, kind, gc, causer, true, nowMs);
        (u.Stored? ==> lastTakeHitInfo == u.info)
      ensures !bIsDying ==> healthRegenTimer
      ensures bIsDying ==>
        Combat() == TimersCleared(Dying(Replicated(old(Combat()), MergeHit(old(lastTakeHitInfo), old(lastTakeHitTimeTimeout),
                                                                          actual, kind, gc, causer, true, nowMs))))
      ensures !bIsDying ==> Combat() == old(Combat()).(healthRegenTimer := true)
      ensures KillRewarded(world, bIsDying)
    {
      forall c | c in Others(world) ensures c.stats != stats {
        assert c.Repr !! Repr;
      }
      // Health drops to zero before Die runs; Die reads no health, so zeroing it right
      // after leaves the same state.
      var died := Die(actual, kind, gc, causer, true, leavingMap, world, nowMs);
      EmptyHealth(Others(world));
      assert died == bIsDying;
    }

    /** A hit the character survives: it loses the damage, the hit is played and health
        regeneration runs. */
    method SurviveHit(actual: real, kind: DamageKind, gc: Character?, causer: ActorId, nowMs: int)
      requires Valid() && stats != null && !bIsDying
      modifies StatsObjects()`health, this`lastTakeHitInfo, this`lastTakeHitTimeTimeout, this`healthRegenTimer
      ensures Valid() && healthRegenTimer
      ensures stats.health == old(stats.health) - actual
      ensures isPendingKill || !isAuthority ==>
        lastTakeHitInfo == old(lastTakeHitInfo) && lastTakeHitTimeTimeout == old(lastTakeHitTimeTimeout)
      ensures !isPendingKill && isAuthority ==>
        var u := MergeHit(old(lastTakeHitInfo), old(lastTakeHitTimeTimeout), actual, kind, gc, causer, false, nowMs);
        lastTakeHitInfo == u.info && lastTakeHitTimeTimeout == u.timeout
      ensures Combat() == (if isPendingKill || !isAuthority then old(Combat())
        else Replicated(old(Combat()), MergeHit(old(lastTakeHitInfo), old(lastTakeHitTimeTimeout), actual, kind, gc, causer, false, nowMs))
        ).(healthRegenTimer := true)
    {
      stats.RemoveHealth(actual);
      PlayHit(actual, kind, gc, causer, nowMs);
      if !healthRegenTimer && IsAlive() {
        StartHealthRegen();
      }
    }

    /** After a lethal hit: health is emptied, and health regeneration runs again if the
        character did not die after all. */
    method EmptyHealth(ghost others: set<Character>)
      requires Valid() && stats != null
      requires forall c :: c in others ==> c.Valid() && c != this && c.stats != stats
      modifies StatsObjects()`health, this`healthRegenTimer
      ensures Valid() && stats.health == 0.0
      ensures healthRegenTimer == (old(healthRegenTimer) || IsAlive())
      ensures Combat() == old(Combat()).(healthRegenTimer := old(healthRegenTimer) || IsAlive())
      ensures forall c :: c in others ==> c.Valid() && c.Progress() == old(c.Progress())
    {
      label Before:
      stats.RemoveHealth(stats.health);
      if !healthRegenTimer && IsAlive() {
        StartHealthRegen();
      }
      forall c | c in others ensures c.Valid() && c.Progress() == old(c.Progress()) {
        c.KeptProgress@Before();
      }
    }

    /** Sets the looping health regen timer. */
    method StartHealthRegen()
      modifies this`healthRegenTimer
      ensures healthRegenTimer
    {
      healthRegenTimer := true;
    }
  }
}

=== FILE: common.dfy ===
/** Small shared vocabulary of the model. */
module Common {

  /** A value that may be absent: a null reference, a missing default object, or a run that
      stopped at a failed range check. */
  datatype Option<T> = None | Some(value: T)

  /** C++ integer division of two int32 values, which truncates toward zero
      (Dafny's own `/` is Euclidean). */
  function TruncDiv(a: int, b: int): int
    requires b > 0
  {
    if a >= 0 then a / b else -((-a) / b)
  }

  /** The float-to-int32 conversion of C++, which truncates toward zero. */
  function TruncReal(x: real): (n: int)
    ensures x >= 0.0 ==> 0 <= n && n as real <= x < n as real + 1.0
    ensures x < 0.0 ==> n <= 0 && n as real - 1.0 < x <= n as real
  {
    if x >= 0.0 then x.Floor else -((-x).Floor)
  }
}

=== FILE: mods.dfy ===
/** Mod items, their recipes and the shop arithmetic that does not touch a buyer (AMod). */
module Mods {
  import opened Common
  import opened Stats

  /** A mod class (TSubclassOf<AMod>). */
  type ClassId = nat

  /** An AMod: its class, its price, the classes its recipe consumes and what it adds to
      each stat. */
  datatype ModItem = ModItem(cls: ClassId, cost: int, recipe: seq<ClassId>, deltaStats: seq<real>)

  /** The default object of every mod class. `depth` is a witness that recipes nest
      finitely: every recipe entry has a smaller depth than the class whose recipe it is in.
      `AMod::GetRecipe` has no cycle guard, so its recursion only ends on such catalogs. */
  datatype Catalog = Catalog(defaults: map<ClassId, ModItem>, depth: map<ClassId, nat>)

  predicate WellFormed(cat: Catalog) {
    forall c :: c in cat.defaults ==>
      c in cat.depth && cat.defaults[c].cls == c &&
      forall k :: 0 <= k < |cat.defaults[c].recipe| ==>
        cat.defaults[c].recipe[k] in cat.defaults && cat.defaults[c].recipe[k] in cat.depth &&
        cat.depth[cat.defaults[c].recipe[k]] < cat.depth[c]
  }

  /** Every entry of `rs` is a catalogued class nested less deeply than `d`. */
  predicate Below(cat: Catalog, rs: seq<ClassId>, d: nat) {
    forall k :: 0 <= k < |rs| ==> rs[k] in cat.defaults && rs[k] in cat.depth && cat.depth[rs[k]] < d
  }

  /** The pre-order expansion of a recipe list: each entry followed by the expansion of its
      own recipe, then the rest. */
  function Expansion(cat: Catalog, rs: seq<ClassId>, d: nat): (r: seq<ClassId>)
    requires WellFormed(cat) && Below(cat, rs, d)
    ensures |r| >= |rs|
    ensures forall k :: 0 <= k < |r| ==> r[k] in cat.defaults
    decreases d, |rs|
  {
    if rs == [] then []
    else
      var c := rs[0];
      [c] + Expansion(cat, cat.defaults[c].recipe, cat.depth[c]) + Expansion(cat, rs[1..], d)
  }

  /** Expanding a concatenation expands each part in turn. */
  lemma {:induction false} ExpansionAppend(cat: Catalog, a: seq<ClassId>, b: seq<ClassId>, d: nat)
    requires WellFormed(cat) && Below(cat, a, d) && Below(cat, b, d)
    ensures Below(cat, a + b, d)
    ensures Expansion(cat, a + b, d) == Expansion(cat, a, d) + Expansion(cat, b, d)
    decreases |a|
  {
    if a == [] {
      assert a + b == b;
    } else {
      assert (a + b)[1..] == a[1..] + b;
      ExpansionAppend(cat, a[1..], b, d);
    }
  }

  /** Every direct recipe entry occurs in the expansion. */
  lemma {:induction false} ExpansionContainsDirect(cat: Catalog, rs: seq<ClassId>, d: nat, k: nat)
    requires WellFormed(cat) && Below(cat, rs, d) && k < |rs|
    ensures rs[k] in Expansion(cat, rs, d)
    decreases |rs|
  {
    if k > 0 {
      ExpansionContainsDirect(cat, rs[1..], d, k - 1);
    }
  }

  /** GetRecipe: appends the expansion of the mod's recipe after what the list already holds. */
  function GetRecipe(cat: Catalog, self: ClassId, recipeClasses: seq<ClassId>): (r: seq<ClassId>)
    requires WellFormed(cat) && self in cat.defaults
    ensures |r| >= |recipeClasses| + |cat.defaults[self].recipe|
    ensures r[..|recipeClasses|] == recipeClasses
    ensures forall k :: |recipeClasses| <= k < |r| ==> r[k] in cat.defaults
  {
    recipeClasses + Expansion(cat, cat.defaults[self].recipe, cat.depth[self])
  }

  /** The expanded recipe of a catalogued class. */
  function ExpandedRecipe(cat: Catalog, self: ClassId): seq<ClassId>
    requires WellFormed(cat) && self in cat.defaults
  {
    GetRecipe(cat, self, [])
  }

  /** Every direct entry is in the expanded recipe, and an empty recipe expands to nothing. */
  lemma ExpandedRecipeShape(cat: Catalog, self: ClassId)
    requires WellFormed(cat) && self in cat.defaults
    ensures forall k :: 0 <= k < |cat.defaults[self].recipe| ==> cat.defaults[self].recipe[k] in ExpandedRecipe(cat, self)
    ensures cat.defaults[self].recipe == [] ==> ExpandedRecipe(cat, self) == []
  {
    var rs := cat.defaults[self].recipe;
    forall k | 0 <= k < |rs|
      ensures rs[k] in ExpandedRecipe(cat, self)
    {
      ExpansionContainsDirect(cat, rs, cat.depth[self], k);
      assert ExpandedRecipe(cat, self) == Expansion(cat, rs, cat.depth[self]);
    }
  }

  /** Σ of the costs of the first `n` mods whose class occurs in `recipe`. */
  function OwnedRecipeCost(mods: seq<ModItem>, recipe: seq<ClassId>, n: nat): int
    requires n <= |mods|
  {
    if n == 0 then 0
    else OwnedRecipeCost(mods, recipe, n - 1) + (if mods[n - 1].cls in recipe then mods[n - 1].cost else 0)
  }

  /** Σ of the costs of a list of mods. */
  function CostSum(ms: seq<ModItem>): int {
    if ms == [] then 0 else CostSum(ms[..|ms| - 1]) + ms[|ms| - 1].cost
  }

  /** The classes of a list of mods, in order. */
  function ClassesOf(ms: seq<ModItem>): (r: seq<ClassId>)
    ensures |r| == |ms| && forall k :: 0 <= k < |ms| ==> r[k] == ms[k].cls
  {
    seq(|ms|, k requires 0 <= k < |ms| => ms[k].cls)
  }

  /** The delta arrays of a list of mods, in order. */
  function DeltasOf(ms: seq<ModItem>): (r: seq<seq<real>>)
    ensures |r| == |ms| && forall k :: 0 <= k < |ms| ==> r[k] == ms[k].deltaStats
  {
    seq(|ms|, k requires 0 <= k < |ms| => ms[k].deltaStats)
  }

  /** Σ of the costs of the direct recipe entries that have a default object. */
  function DirectRecipeCost(cat: Catalog, rs: seq<ClassId>): int {
    if rs == [] then 0
    else
      var last := rs[|rs| - 1];
      DirectRecipeCost(cat, rs[..|rs| - 1]) + (if last in cat.defaults then cat.defaults[last].cost else 0)
  }

  /** GetUIRecipeForMod: appends the class's direct recipe entries, in order; an unknown
      class appends nothing. */
  method GetUIRecipeForMod(cat: Catalog, modClass: ClassId, recipeArray: seq<ClassId>) returns (r: seq<ClassId>)
    ensures modClass in cat.defaults ==> r == recipeArray + cat.defaults[modClass].recipe
    ensures modClass !in cat.defaults ==> r == recipeArray
  {
    r := recipeArray;
    if modClass in cat.defaults {
      var recipe := cat.defaults[modClass].recipe;
      for k := 0 to |recipe|
        invariant r == recipeArray + recipe[..k]
      {
        r := r + [recipe[k]];
      }
      assert recipe[..|recipe|] == recipe;
    }
  }

  /** GetUIRecipeCost: the class's price less the prices of its direct recipe entries
      (not their expansion); 0 for an unknown class. */
  method GetUIRecipeCost(cat: Catalog, modClass: ClassId) returns (cost: int)
    ensures modClass in cat.defaults ==>
      cost == cat.defaults[modClass].cost - DirectRecipeCost(cat, cat.defaults[modClass].recipe)
    ensures modClass !in cat.defaults ==> cost == 0
  {
    cost := 0;
    if modClass in cat.defaults {
      var recipe := cat.defaults[modClass].recipe;
      cost := cat.defaults[modClass].cost;
      for k := 0 to |recipe|
        invariant cost == cat.defaults[modClass].cost - DirectRecipeCost(cat, recipe[..k])
      {
        assert recipe[..k + 1][..k] == recipe[..k];
        if recipe[k] in cat.defaults {
          cost := cost - cat.defaults[recipe[k]].cost;
        }
      }
      assert recipe[..|recipe|] == recipe;
    }
  }

  /** The outcome of the matching loop shared by CanCharacterBuyThisMod and
      CharacterPurchasedMod: the mods it matched (and removed), what is left of the working
      copies, and the credits the matches take off the price. */
  datatype RecipeMatch = RecipeMatch(discount: int, matched: seq<ModItem>, restMods: seq<ModItem>, restClasses: seq<ClassId>)

  /** `s` without its entry at `j` (TArray::RemoveAt). */
  function RemoveAt<T>(s: seq<T>, j: nat): (r: seq<T>)
    requires j < |s|
    ensures |r| == |s| - 1
    ensures multiset(r) + multiset{s[j]} == multiset(s)
  {
    assert s == s[..j] + [s[j]] + s[j + 1..];
    s[..j] + s[j + 1..]
  }

  /** The nested matching loop of CanCharacterBuyThisMod, as a function, at the head of
      the outer loop with class index i; `st` holds the discount and the mods matched so
      far and the working copies of the class list and of the buyer's mods. */
  function MatchFromClass(st: RecipeMatch, i: nat): Option<RecipeMatch>
    decreases |st.restClasses| - i, |st.restMods| + 1
  {
    if i < |st.restClasses| then MatchFromMod(st, i, 0) else Some(st)
  }

  /** The matching loop at the head of the inner loop with class index i and mod index j.
      A match removes the mod at j and the class at i from the working copies and goes on
      with j + 1 and the same i, so the mod that moved into slot j is skipped; once the
      last class is gone the loop reads classList[i] past its end, and that range-check
      failure is the None outcome. */
  function MatchFromMod(st: RecipeMatch, i: nat, j: nat): Option<RecipeMatch>
    requires i <= |st.restClasses|
    decreases |st.restClasses| - i, |st.restMods| - j
  {
    if j >= |st.restMods| then MatchFromClass(st, i + 1)
    else if i >= |st.restClasses| then None
    else if st.restMods[j].cls == st.restClasses[i] then
      var item := st.restMods[j];
      MatchFromMod(RecipeMatch(st.discount + item.cost, st.matched + [item],
                               RemoveAt(st.restMods, j), RemoveAt(st.restClasses, i)), i, j + 1)
    else
      MatchFromMod(st, i, j + 1)
  }

  /** The state after one pass of the inner loop body at i and j. */
  function MatchNext(st: RecipeMatch, i: nat, j: nat): (next: RecipeMatch)
    requires i < |st.restClasses| && j < |st.restMods|
    ensures |next.restClasses| >= |st.restClasses| - 1
  {
    if st.restMods[j].cls == st.restClasses[i] then
      var item := st.restMods[j];
      RecipeMatch(st.discount + item.cost, st.matched + [item], RemoveAt(st.restMods, j), RemoveAt(st.restClasses, i))
    else st
  }

  /** One pass of the inner loop body, for callers that step through the loop. */
  lemma MatchFromModStep(st: RecipeMatch, i: nat, j: nat)
    requires i < |st.restClasses| && j < |st.restMods|
    ensures i <= |MatchNext(st, i, j).restClasses|
    ensures MatchFromMod(st, i, j) == MatchFromMod(MatchNext(st, i, j), i, j + 1)
  {
  }

  /** One pass of the inner loop body keeps the bookkeeping and the loop's outcome. */
  lemma MatchAdvance(st: RecipeMatch, classes: seq<ClassId>, owned: seq<ModItem>, i: nat, j: nat)
    requires Accounted(st, classes, owned)
    requires i < |st.restClasses| && j < |st.restMods|
    ensures Accounted(MatchNext(st, i, j), classes, owned)
    ensures i <= |MatchNext(st, i, j).restClasses|
    ensures MatchFromMod(st, i, j) == MatchFromMod(MatchNext(st, i, j), i, j + 1)
  {
    if st.restMods[j].cls == st.restClasses[i] {
      MatchStep(st, classes, owned, i, j);
    }
  }

  /** The outcome of the matching loop over the expanded recipe `classes` and the buyer's
      mods `owned`. */
  function MatchOutcome(classes: seq<ClassId>, owned: seq<ModItem>): Option<RecipeMatch> {
    MatchFromClass(RecipeMatch(0, [], owned, classes), 0)
  }

  /** The loop's bookkeeping: the mods matched plus the mods left are the owned mods, their
      classes plus the classes left are the recipe, and the discount is what the matched
      mods cost. */
  predicate Accounted(st: RecipeMatch, classes: seq<ClassId>, owned: seq<ModItem>) {
    multiset(st.matched) + multiset(st.restMods) == multiset(owned) &&
    multiset(ClassesOf(st.matched)) + multiset(st.restClasses) == multiset(classes) &&
    st.discount == CostSum(st.matched)
  }

  /** Everything the matching loop guarantees about one of its outcomes. */
  predicate IsMatchOf(mt: RecipeMatch, classes: seq<ClassId>, owned: seq<ModItem>) {
    Accounted(mt, classes, owned) &&
    |mt.matched| <= |owned| && |mt.matched| <= |classes| &&
    (forall k :: 0 <= k < |mt.matched| ==> mt.matched[k].cls in classes)
  }

  /** One match keeps the bookkeeping. */
  lemma MatchStep(st: RecipeMatch, classes: seq<ClassId>, owned: seq<ModItem>, i: nat, j: nat)
    requires Accounted(st, classes, owned)
    requires i < |st.restClasses| && j < |st.restMods| && st.restMods[j].cls == st.restClasses[i]
    ensures Accounted(RecipeMatch(st.discount + st.restMods[j].cost, st.matched + [st.restMods[j]],
                                  RemoveAt(st.restMods, j), RemoveAt(st.restClasses, i)), classes, owned)
  {
    var item := st.restMods[j];
    assert (st.matched + [item])[..|st.matched|] == st.matched;
    assert ClassesOf(st.matched + [item]) == ClassesOf(st.matched) + [st.restClasses[i]];
  }

  lemma {:induction false} MatchFromClassAccounted(st: RecipeMatch, i: nat, classes: seq<ClassId>, owned: seq<ModItem>)
    requires Accounted(st, classes, owned)
    ensures MatchFromClass(st, i).Some? ==> Accounted(MatchFromClass(st, i).value, classes, owned)
    decreases |st.restClasses| - i, |st.restMods| + 1
  {
    if i < |st.restClasses| {
      MatchFromModAccounted(st, i, 0, classes, owned);
    }
  }

  lemma {:induction false} MatchFromModAccounted(st: RecipeMatch, i: nat, j: nat, classes: seq<ClassId>, owned: seq<ModItem>)
    requires i <= |st.restClasses| && Accounted(st, classes, owned)
    ensures MatchFromMod(st, i, j).Some? ==> Accounted(MatchFromMod(st, i, j).value, classes, owned)
    decreases |st.restClasses| - i, |st.restMods| - j
  {
    if j >= |st.restMods| {
      MatchFromClassAccounted(st, i + 1, classes, owned);
    } else if i < |st.restClasses| {
      if st.restMods[j].cls == st.restClasses[i] {
        MatchStep(st, classes, owned, i, j);
        var item := st.restMods[j];
        MatchFromModAccounted(RecipeMatch(st.discount + item.cost, st.matched + [item],
                                          RemoveAt(st.restMods, j), RemoveAt(st.restClasses, i)), i, j + 1, classes, owned);
      } else {
        MatchFromModAccounted(st, i, j + 1, classes, owned);
      }
    }
  }

  /** Every outcome of the matching loop is a match of the recipe against the owned mods. */
  lemma MatchOutcomeIsMatch(classes: seq<ClassId>, owned: seq<ModItem>)
    ensures MatchOutcome(classes, owned).Some? ==> IsMatchOf(MatchOutcome(classes, owned).value, classes, owned)
  {
    var st := RecipeMatch(0, [], owned, classes);
    assert Accounted(st, classes, owned);
    MatchFromClassAccounted(st, 0, classes, owned);
    if MatchOutcome(classes, owned).Some? {
      var mt := MatchOutcome(classes, owned).value;
      MatchedBounds(mt.matched, mt.restMods, owned, mt.restClasses, classes);
    }
  }

  lemma {:induction false} NothingOwnedFrom(st: RecipeMatch, i: nat)
    requires st.restMods == []
    ensures MatchFromClass(st, i) == Some(st)
    decreases |st.restClasses| - i
  {
    if i < |st.restClasses| {
      NothingOwnedFrom(st, i + 1);
    }
  }

  /** A buyer owning no mods matches nothing and keeps the whole recipe. */
  lemma NothingOwnedNothingMatched(classes: seq<ClassId>)
    ensures MatchOutcome(classes, []) == Some(RecipeMatch(0, [], [], classes))
  {
    NothingOwnedFrom(RecipeMatch(0, [], [], classes), 0);
  }

  /** The matching loop of `AMod::CanCharacterBuyThisMod`, written as a loop over the
      recipe classes with an inner loop over the owned mods. */
  method MatchRecipe(classes: seq<ClassId>, owned: seq<ModItem>) returns (m: Option<RecipeMatch>)
    ensures m == MatchOutcome(classes, owned)
    ensures m.Some? ==> IsMatchOf(m.value, classes, owned)
    ensures owned == [] ==> m == Some(RecipeMatch(0, [], [], classes))
  {
    MatchOutcomeIsMatch(classes, owned);
    NothingOwnedNothingMatched(classes);
    var classList, mods := classes, owned;
    var discount := 0;
    var matched: seq<ModItem> := [];
    var i := 0;
    while i < |classList|
      invariant MatchFromClass(RecipeMatch(discount, matched, mods, classList), i) == MatchOutcome(classes, owned)
      decreases |classList| - i
    {
      var j := 0;
      ghost var classesBefore := |classList|;
      while j < |mods|
        invariant i <= |classList| <= classesBefore
        invariant MatchFromMod(RecipeMatch(discount, matched, mods, classList), i, j) == MatchOutcome(classes, owned)
        decreases |mods| - j
      {
        if i >= |classList| {
          return None;
        }
        if mods[j].cls == classList[i] {
          var item := mods[j];
          discount := discount + item.cost;
          matched := matched + [item];
          mods := RemoveAt(mods, j);
          classList := RemoveAt(classList, i);
        }
        j := j + 1;
      }
      i := i + 1;
    }
    m := Some(RecipeMatch(discount, matched, mods, classList));
  }

  /** What the multiset bookkeeping of the matching loop implies about sizes and classes. */
  lemma MatchedBounds(matched: seq<ModItem>, mods: seq<ModItem>, owned: seq<ModItem>,
                      classList: seq<ClassId>, classes: seq<ClassId>)
    requires multiset(matched) + multiset(mods) == multiset(owned)
    requires multiset(ClassesOf(matched)) + multiset(classList) == multiset(classes)
    ensures |matched| <= |owned| && |matched| <= |classes|
    ensures forall k :: 0 <= k < |matched| ==> matched[k].cls in classes
  {
    assert |multiset(owned)| == |multiset(matched)| + |multiset(mods)|;
    assert |multiset(classes)| == |multiset(ClassesOf(matched))| + |multiset(classList)|;
    forall k | 0 <= k < |matched|
      ensures matched[k].cls in classes
    {
      assert ClassesOf(matched)[k] in multiset(ClassesOf(matched));
      assert matched[k].cls in multiset(classes);
    }
  }
}

=== FILE: shop.dfy ===
/** The buyer-facing half of AMod: the discounted price, the affordability check with its
    five-slot cap, and the purchase that debits credits and consumes recipe items. */
module Shop {
  import opened Common
  import opened Stats
  import opened Mods
  import opened Characters

  /** The buyer as a set, empty for a null reference. */
  function BuyerSet(b: Character?): set<Character> {
    if b != null then {b} else {}
  }

  /** IsValid(buyer): not null and not pending kill. */
  predicate Present(b: Character?)
    reads BuyerSet(b)`isPendingKill
  {
    b != null && !b.isPendingKill
  }

  /** The price GetCost(true, buyer) asks of a buyer owning `owned`: the list price less the
      price of every owned mod whose class occurs anywhere in the expanded recipe. */
  function NeededCost(cat: Catalog, self: ClassId, owned: seq<ModItem>): int
    requires WellFormed(cat) && self in cat.defaults
  {
    cat.defaults[self].cost - OwnedRecipeCost(owned, ExpandedRecipe(cat, self), |owned|)
  }

  /** GetCost: the list price, unless the needed cost is asked for a valid buyer, in which
      case every owned mod whose class is in the expanded recipe is subtracted. */
  method GetCost(cat: Catalog, self: ClassId, bNeededCost: bool, buyer: Character?) returns (r: int)
    requires WellFormed(cat) && self in cat.defaults
    ensures !bNeededCost || !Present(buyer) ==> r == cat.defaults[self].cost
    ensures bNeededCost && Present(buyer) ==> r == NeededCost(cat, self, buyer.mods)
  {
    if !bNeededCost {
      return cat.defaults[self].cost;
    }
    if !Present(buyer) {
      return cat.defaults[self].cost;
    }
    var recipeMods := GetRecipe(cat, self, []);
    var mods := buyer.mods;
    var neededCredits := cat.defaults[self].cost;
    for j := 0 to |mods|
      invariant neededCredits == cat.defaults[self].cost - OwnedRecipeCost(mods, recipeMods, j)
    {
      if mods[j].cls in recipeMods {
        neededCredits := neededCredits - mods[j].cost;
      }
    }
    r := neededCredits;
  }

  /** Owned mods none of whose classes occur in the expanded recipe give no discount. */
  lemma {:induction false} NoDiscountOutsideRecipe(owned: seq<ModItem>, recipe: seq<ClassId>, n: nat)
    requires n <= |owned|
    requires forall k :: 0 <= k < |owned| ==> owned[k].cls !in recipe
    ensures OwnedRecipeCost(owned, recipe, n) == 0
  {
    if n > 0 {
      NoDiscountOutsideRecipe(owned, recipe, n - 1);
    }
  }

  /** With prices that are not negative, the needed cost never exceeds the list price. */
  lemma NeededCostAtMostPrice(cat: Catalog, self: ClassId, owned: seq<ModItem>)
    requires WellFormed(cat) && self in cat.defaults
    requires forall k :: 0 <= k < |owned| ==> owned[k].cost >= 0
    ensures NeededCost(cat, self, owned) <= cat.defaults[self].cost
  {
    OwnedCostNonNegative(owned, ExpandedRecipe(cat, self), |owned|);
  }

  lemma {:induction false} OwnedCostNonNegative(owned: seq<ModItem>, recipe: seq<ClassId>, n: nat)
    requires n <= |owned|
    requires forall k :: 0 <= k < |owned| ==> owned[k].cost >= 0
    ensures OwnedRecipeCost(owned, recipe, n) >= 0
  {
    if n > 0 {
      OwnedCostNonNegative(owned, recipe, n - 1);
    }
  }

  /** A two-class catalog: class 1 costs 50 and its recipe is class 0, which costs 20. */
  function SampleCatalog(): (cat: Catalog)
    ensures WellFormed(cat) && 0 in cat.defaults && 1 in cat.defaults
  {
    Catalog(map[0 := ModItem(0, 20, [], []), 1 := ModItem(1, 50, [0], [])], map[0 := 0, 1 := 1])
  }

  /** A buyer owning the one recipe mod pays 30 for the 50-credit mod; owning it twice, the
      discount is taken twice and the price drops to 10, although a purchase consumes only
      one of the copies. */
  lemma SampleNeededCosts()
    ensures NeededCost(SampleCatalog(), 1, [ModItem(0, 20, [], [])]) == 30
    ensures NeededCost(SampleCatalog(), 1, [ModItem(0, 20, [], []), ModItem(0, 20, [], [])]) == 10
    ensures NeededCost(SampleCatalog(), 1, []) == 50
  {
    var cat := SampleCatalog();
    assert Expansion(cat, [], 0) == [];
    assert Expansion(cat, [0], 1) == [0];
    assert ExpandedRecipe(cat, 1) == [0];
    var a := ModItem(0, 20, [], []);
    assert OwnedRecipeCost([a, a], [0], 1) == 20;
  }

  /** The verdict of CanCharacterBuyThisMod once the loop has run: refused when the buyer
      would hold more than five mods after the purchase, otherwise allowed when the credits
      cover the list price or the discounted price. */
  predicate BuyVerdict(modCount: int, removeCount: int, credits: int, cost: int, neededCredits: int) {
    modCount - removeCount + 1 <= 5 && (credits >= cost || credits >= neededCredits)
  }

  /** What CanCharacterBuyThisMod answers for a valid buyer holding `mods` and `credits`:
      None when the matching loop reads past the end of the class list, otherwise the
      verdict on what the loop matched. */
  function BuyOutcome(cat: Catalog, self: ClassId, mods: seq<ModItem>, credits: int): Option<bool>
    requires WellFormed(cat) && self in cat.defaults
  {
    match MatchOutcome(ExpandedRecipe(cat, self), mods)
    case None => None
    case Some(mt) =>
      Some(BuyVerdict(|mods|, |mt.matched|, credits, cat.defaults[self].cost, cat.defaults[self].cost - mt.discount))
  }

  /** CanCharacterBuyThisMod; `m` is the outcome of its matching loop. */
  method CanCharacterBuyThisMod(cat: Catalog, self: ClassId, buyer: Character?)
    returns (r: Option<bool>, ghost m: Option<RecipeMatch>)
    requires WellFormed(cat) && self in cat.defaults
    ensures !Present(buyer) ==> r == Some(false)
    ensures Present(buyer) ==> r == BuyOutcome(cat, self, buyer.mods, buyer.credits)
    ensures Present(buyer) ==> m == MatchOutcome(ExpandedRecipe(cat, self), buyer.mods)
    ensures Present(buyer) && m.Some? ==> IsMatchOf(m.value, ExpandedRecipe(cat, self), buyer.mods)
    ensures Present(buyer) && buyer.mods == [] ==>
      r == Some(BuyVerdict(0, 0, buyer.credits, cat.defaults[self].cost, cat.defaults[self].cost))
  {
    if !Present(buyer) {
      return Some(false), None;
    }
    var mods := buyer.mods;
    var classList := GetRecipe(cat, self, []);
    var outcome := MatchRecipe(classList, mods);
    m := outcome;
    if outcome.None? {
      return None, m;
    }
    var neededCredits := cat.defaults[self].cost - outcome.value.discount;
    var removeCount := |outcome.value.matched|;
    if (|mods| - removeCount) + 1 > 5 {
      return Some(false), m;
    }
    if buyer.credits >= cat.defaults[self].cost {
      return Some(true), m;
    }
    r := Some(buyer.credits >= neededCredits);
  }

  /** The sample catalog's class 1 (price 50, recipe [0]) against a buyer holding one
      class-0 mod (price 20): the match takes 20 off, so 30 credits suffice and 29 do not;
      with nothing owned the full 50 is needed. A second class-0 mod behind a mod of
      another class is where the loop reads past the end of its class list. */
  lemma SampleBuyOutcomes()
    ensures var a := ModItem(0, 20, [], []);
      MatchOutcome([0], [a]) == Some(RecipeMatch(20, [a], [], [])) &&
      BuyOutcome(SampleCatalog(), 1, [a], 30) == Some(true) &&
      BuyOutcome(SampleCatalog(), 1, [a], 29) == Some(false) &&
      BuyOutcome(SampleCatalog(), 1, [], 50) == Some(true) &&
      BuyOutcome(SampleCatalog(), 1, [], 49) == Some(false) &&
      MatchOutcome([0], [a, ModItem(5, 10, [], []), a]) == None
  {
    var cat := SampleCatalog();
    assert Expansion(cat, [], 0) == [];
    assert Expansion(cat, [0], 1) == [0];
    assert ExpandedRecipe(cat, 1) == [0];
    var a := ModItem(0, 20, [], []);
    var x := ModItem(5, 10, [], []);
    var hit := RecipeMatch(20, [a], [], []);
    assert RemoveAt([a], 0) == [] && RemoveAt([0], 0) == [];
    assert MatchNext(RecipeMatch(0, [], [a], [0]), 0, 0) == hit;
    MatchFromModStep(RecipeMatch(0, [], [a], [0]), 0, 0);
    assert MatchFromMod(hit, 0, 1) == Some(hit);
    assert MatchOutcome([0], [a]) == Some(hit);
    NothingOwnedNothingMatched([0]);
    var after := RecipeMatch(20, [a], [x, a], []);
    assert RemoveAt([a, x, a], 0) == [x, a];
    assert MatchFromMod(after, 0, 1) == None;
  }

  /** CostSum after taking out the entry at j drops by exactly that entry's price. */
  lemma {:induction false} CostSumRemoveAt(s: seq<ModItem>, j: nat)
    requires j < |s|
    ensures CostSum(s) == CostSum(RemoveAt(s, j)) + s[j].cost
    decreases |s|
  {
    var last := |s| - 1;
    var t := RemoveAt(s, j);
    if j == last {
      assert t == s[..last];
    } else {
      var u := s[..last];
      assert t == RemoveAt(u, j) + [s[last]];
      CostSumRemoveAt(u, j);
    }
  }

  /** One occurrence of x taken out of a list of mods holding it: the rest keeps every
      other occurrence and costs x's price less. */
  lemma TakeOut(ms: seq<ModItem>, x: ModItem) returns (rest: seq<ModItem>)
    requires x in multiset(ms)
    ensures multiset(rest) + multiset{x} == multiset(ms)
    ensures CostSum(ms) == CostSum(rest) + x.cost
    ensures forall m :: m in rest ==> m in ms
  {
    var j :| 0 <= j < |ms| && ms[j] == x;
    rest := RemoveAt(ms, j);
    CostSumRemoveAt(ms, j);
    forall m | m in rest
      ensures m in ms
    {
      assert m in multiset(rest);
    }
  }

  /** A sub-multiset of the owned mods whose classes all occur in the recipe costs at most
      the owned recipe cost, when no price is negative. */
  lemma {:induction false} MatchedWithinOwned(owned: seq<ModItem>, recipe: seq<ClassId>, n: nat, matched: seq<ModItem>)
    requires n <= |owned|
    requires forall k :: 0 <= k < |owned| ==> owned[k].cost >= 0
    requires multiset(matched) <= multiset(owned[..n])
    requires forall m :: m in matched ==> m.cls in recipe
    ensures CostSum(matched) <= OwnedRecipeCost(owned, recipe, n)
    decreases n
  {
    if n > 0 {
      var x := owned[n - 1];
      assert owned[..n] == owned[..n - 1] + [x];
      assert multiset(owned[..n]) == multiset(owned[..n - 1]) + multiset{x};
      if x in multiset(matched) {
        var rest := TakeOut(matched, x);
        SubMultisetCancel(multiset(rest), multiset(owned[..n - 1]), x);
        MatchedWithinOwned(owned, recipe, n - 1, rest);
      } else {
        SubMultisetSkip(multiset(matched), multiset(owned[..n - 1]), x);
        MatchedWithinOwned(owned, recipe, n - 1, matched);
      }
    }
  }

  /** The purchase never leaves the buyer with negative credits when the affordability
      check allowed it and no price is negative: the price charged, GetCost(true), is at
      most the list price and at most the discounted price the check compared against. */
  lemma AllowedPurchaseAffordable(cat: Catalog, self: ClassId, owned: seq<ModItem>, mt: RecipeMatch, credits: int)
    requires WellFormed(cat) && self in cat.defaults
    requires forall k :: 0 <= k < |owned| ==> owned[k].cost >= 0
    requires IsMatchOf(mt, ExpandedRecipe(cat, self), owned)
    requires BuyVerdict(|owned|, |mt.matched|, credits, cat.defaults[self].cost, cat.defaults[self].cost - mt.discount)
    ensures credits - NeededCost(cat, self, owned) >= 0
  {
    var recipe := ExpandedRecipe(cat, self);
    assert owned[..|owned|] == owned;
    assert multiset(mt.matched) <= multiset(owned);
    MatchedWithinOwned(owned, recipe, |owned|, mt.matched);
    MatchedCostNonNegative(mt.matched, owned);
  }

  lemma SubMultisetCancel<T>(a: multiset<T>, b: multiset<T>, x: T)
    requires a + multiset{x} <= b + multiset{x}
    ensures a <= b
  {
    forall y
      ensures a[y] <= b[y]
    {
      assert (a + multiset{x})[y] <= (b + multiset{x})[y];
    }
  }

  lemma SubMultisetSkip<T>(a: multiset<T>, b: multiset<T>, x: T)
    requires a <= b + multiset{x} && x !in a
    ensures a <= b
  {
    forall y
      ensures a[y] <= b[y]
    {
      assert a[y] <= (b + multiset{x})[y];
    }
  }

  lemma {:induction false} MatchedCostNonNegative(matched: seq<ModItem>, owned: seq<ModItem>)
    requires forall k :: 0 <= k < |owned| ==> owned[k].cost >= 0
    requires multiset(matched) <= multiset(owned)
    ensures CostSum(matched) >= 0
    decreases |matched|
  {
    if matched != [] {
      var last := matched[|matched| - 1];
      assert matched == matched[..|matched| - 1] + [last];
      assert last in multiset(owned);
      MatchedCostNonNegative(matched[..|matched| - 1], owned);
    }
  }

  /** The buyer's stats manager, as a set. */
  function BuyerStats(b: Character?): set<StatsManager>
    reads BuyerSet(b)`stats
  {
    if b != null && b.stats != null then {b.stats} else {}
  }

  /** The buyer's mod layer array, as a set. */
  function BuyerModArray(b: Character?): set<array<real>>
    reads BuyerSet(b)`stats, BuyerStats(b)`modStats
  {
    if b != null && b.stats != null then {b.stats.modStats} else {}
  }

  /** CharacterPurchasedMod: debits GetCost(true) once, before anything is removed, then
      consumes the matched recipe items. `ok` is false when the removal loop stopped at the
      out-of-range read; `removed` lists the mods unequipped up to then. */
  method CharacterPurchasedMod(cat: Catalog, self: ClassId, buyer: Character?)
    returns (ok: bool, ghost removed: seq<ModItem>)
    requires WellFormed(cat) && self in cat.defaults
    requires Present(buyer) ==> buyer.Valid() && buyer.stats != null
    modifies BuyerSet(buyer)`credits, BuyerSet(buyer)`mods, BuyerModArray(buyer)
    ensures !Present(buyer) ==> ok && removed == []
    ensures buyer != null && !Present(buyer) ==> buyer.credits == old(buyer.credits) && buyer.mods == old(buyer.mods)
    ensures Present(buyer) ==>
      buyer.Valid() && buyer.credits == old(buyer.credits - NeededCost(cat, self, buyer.mods))
    ensures Present(buyer) ==> ok == old(MatchOutcome(ExpandedRecipe(cat, self), buyer.mods)).Some?
    ensures Present(buyer) && ok ==>
      var mt := old(MatchOutcome(ExpandedRecipe(cat, self), buyer.mods)).value;
      removed == mt.matched && buyer.mods == mt.restMods
    ensures Present(buyer) ==>
      multiset(removed) + multiset(buyer.mods) == multiset(old(buyer.mods)) &&
      |removed| <= |ExpandedRecipe(cat, self)| &&
      forall k :: 0 <= k < |removed| ==> removed[k].cls in ExpandedRecipe(cat, self)
    ensures Present(buyer) && old(buyer.mods) == [] ==> ok && buyer.mods == []
  {
    if !Present(buyer) {
      return true, [];
    }
    var price := GetCost(cat, self, true, buyer);
    buyer.ChangeCredits(-1 * price);
    var classList := GetRecipe(cat, self, []);
    ok, removed := RemoveRecipeMods(buyer, classList);
  }

  /** The removal loop of CharacterPurchasedMod over the expanded recipe `classes`: it
      matches exactly like the affordability check and unequips each matched mod from the
      buyer (RemoveMod) in lockstep with the working copy, which stays equal to the buyer's
      list. */
  method RemoveRecipeMods(buyer: Character, classes: seq<ClassId>) returns (ok: bool, ghost removed: seq<ModItem>)
    requires buyer.Valid() && buyer.stats != null
    modifies buyer`mods, buyer.stats.modStats
    ensures buyer.Valid()
    ensures ok == MatchOutcome(classes, old(buyer.mods)).Some?
    ensures ok ==> removed == MatchOutcome(classes, old(buyer.mods)).value.matched &&
                   buyer.mods == MatchOutcome(classes, old(buyer.mods)).value.restMods
    ensures multiset(removed) + multiset(buyer.mods) == multiset(old(buyer.mods))
    ensures |removed| <= |classes| && forall k :: 0 <= k < |removed| ==> removed[k].cls in classes
    ensures old(buyer.mods) == [] ==> ok && buyer.mods == []
  {
    removed := [];
    var classList := classes;
    var mods := buyer.mods;
    ghost var owned := mods;
    ghost var st := RecipeMatch(0, [], mods, classList);
    NothingOwnedNothingMatched(classes);
    var i := 0;
    while i < |classList|
      invariant buyer.Valid() && buyer.mods == mods
      invariant st.matched == removed && st.restMods == mods && st.restClasses == classList
      invariant Accounted(st, classes, owned)
      invariant MatchFromClass(st, i) == MatchOutcome(classes, owned)
      decreases |classList| - i
    {
      var j := 0;
      ghost var classesBefore := |classList|;
      while j < |mods|
        invariant i <= |classList| <= classesBefore
        invariant buyer.Valid() && buyer.mods == mods
        invariant st.matched == removed && st.restMods == mods && st.restClasses == classList
        invariant Accounted(st, classes, owned)
        invariant MatchFromMod(st, i, j) == MatchOutcome(classes, owned)
        decreases |mods| - j
      {
        if i >= |classList| {
          MatchedBounds(removed, mods, owned, classList, classes);
          return false, removed;
        }
        MatchAdvance(st, classes, owned, i, j);
        st := MatchNext(st, i, j);
        if mods[j].cls == classList[i] {
          var item := mods[j];
          buyer.RemoveMod(j);
          removed := removed + [item];
          mods := RemoveAt(mods, j);
          classList := RemoveAt(classList, i);
        }
        j := j + 1;
      }
      i := i + 1;
    }
    MatchedBounds(removed, mods, owned, classList, classes);
    ok := true;
  }
}

=== FILE: stats.dfy ===
/** The stat table and the effect engine of one character (AStatsManager).
    Every stat has three layers of the same fixed length: base, mod (from equipped mods)
    and bonus (from timed effects). */
module Stats {
  import opened Common

  // The EStat enumeration is declared in a header that is not part of this model; the
  // indices below fix one order for it. Nothing proved here depends on the order.
  const HP: nat := 0
  const HPPL: nat := 1
  const HPRegen: nat := 2
  const HPRegenPL: nat := 3
  const Flare: nat := 4
  const FlarePL: nat := 5
  const FlareRegen: nat := 6
  const FlareRegenPL: nat := 7
  const Atk: nat := 8
  const AtkPL: nat := 9
  const Def: nat := 10
  const DefPL: nat := 11
  const SpAtk: nat := 12
  const SpAtkPL: nat := 13
  const SpDef: nat := 14
  const SpDefPL: nat := 15
  const AtkSp: nat := 16
  const AtkSpPL: nat := 17
  const Move: nat := 18
  const CDR: nat := 19
  const CritChance: nat := 20
  const CritRatio: nat := 21
  const AARange: nat := 22
  const HPDrain: nat := 23
  /** EStat::ES_Max, the length of every stat layer. */
  const ES_MAX: nat := 24

  /** The per-level stat whose current value a level-up adds to base stat `s`, if any. */
  function GrowthOf(s: nat): (r: Option<nat>)
    ensures r.Some? ==> s < ES_MAX && r.value < ES_MAX
  {
    if s == HP then Some(HPPL)
    else if s == Flare then Some(FlarePL)
    else if s == HPRegen then Some(HPRegenPL)
    else if s == FlareRegen then Some(FlareRegenPL)
    else if s == SpAtk then Some(SpAtkPL)
    else if s == Atk then Some(AtkPL)
    else if s == Def then Some(DefPL)
    else if s == SpDef then Some(SpDefPL)
    else if s == AtkSp then Some(AtkSpPL)
    else None
  }

  /** Level-up growth never feeds a per-level stat into itself or another grown stat, so a
      level-up may read every per-level stat before or after any of its writes. */
  lemma GrowthSourcesAreNotGrown(s: nat)
    requires GrowthOf(s).Some?
    ensures GrowthOf(s).value < ES_MAX && GrowthOf(GrowthOf(s).value).None?
    ensures s < ES_MAX && s != GrowthOf(s).value
  {
  }

  /** Base stats after one level-up: every grown stat gains the current value (base + mod +
      bonus) of its per-level stat, read before any write; every other base stat is kept. */
  function Grown(base: seq<real>, mod: seq<real>, bonus: seq<real>): (r: seq<real>)
    requires |base| == ES_MAX && |mod| == ES_MAX && |bonus| == ES_MAX
    ensures |r| == ES_MAX
    ensures forall s :: 0 <= s < ES_MAX && GrowthOf(s).None? ==> r[s] == base[s]
  {
    seq(ES_MAX, s requires 0 <= s < ES_MAX =>
      match GrowthOf(s)
      case Some(g) => base[s] + (base[g] + mod[g] + bonus[g])
      case None => base[s])
  }

  /** The value state of a stats manager: the contents of its three layers and its fields. */
  datatype StatsState = StatsState(base: seq<real>, mod: seq<real>, bonus: seq<real>,
                                   health: real, flare: real, bInitialized: bool, isAuthority: bool,
                                   effectsMap: map<string, EffectRef>, effectsList: seq<EffectRef>,
                                   effects: map<nat, EffectRec>, nextEffectId: nat)

  /** All three layers hold one value per stat. */
  predicate Layered(st: StatsState) {
    |st.base| == ES_MAX && |st.mod| == ES_MAX && |st.bonus| == ES_MAX
  }

  /** GetCurrentValueForStat on a state. */
  function CurrentOf(st: StatsState, s: nat): real
    requires Layered(st) && s < ES_MAX
  {
    st.base[s] + st.mod[s] + st.bonus[s]
  }

  /** A level-up: the base layer grows, health and flare gain the current HP and flare
      per-level values, and nothing else changes. */
  function LevelGrowth(st: StatsState): (r: StatsState)
    requires Layered(st)
    ensures Layered(r)
  {
    st.(base := Grown(st.base, st.mod, st.bonus),
        health := st.health + CurrentOf(st, HPPL), flare := st.flare + CurrentOf(st, FlarePL))
  }

  /** One growth write: base stat `s` gains the current value of its per-level stat, read
      from the layers as they stand; a stat without growth is left alone. */
  function GrowthWrite(base: seq<real>, mod: seq<real>, bonus: seq<real>, s: nat): (r: seq<real>)
    requires |base| == ES_MAX && |mod| == ES_MAX && |bonus| == ES_MAX
    ensures |r| == ES_MAX
  {
    match GrowthOf(s)
    case Some(g) => base[s := base[s] + (base[g] + mod[g] + bonus[g])]
    case None => base
  }

  /** The order in which a level-up makes its growth writes. */
  const GrowthOrder: seq<nat> := [HP, Flare, HPRegen, FlareRegen, SpAtk, Atk, Def, SpDef, AtkSp]

  /** The growth writes for the stats of `order`, made one after another, each reading the
      base layer that the writes before it left. */
  function GrowthWrites(base: seq<real>, mod: seq<real>, bonus: seq<real>, order: seq<nat>): (r: seq<real>)
    requires |base| == ES_MAX && |mod| == ES_MAX && |bonus| == ES_MAX
    ensures |r| == ES_MAX
    decreases |order|
  {
    if order == [] then base
    else GrowthWrite(GrowthWrites(base, mod, bonus, order[..|order| - 1]), mod, bonus, order[|order| - 1])
  }

  /** The writes for the first k + 1 stats of `order` are those for the first k, then the
      write for stat k. */
  lemma GrowthWritesStep(base: seq<real>, mod: seq<real>, bonus: seq<real>, order: seq<nat>, k: nat)
    requires |base| == ES_MAX && |mod| == ES_MAX && |bonus| == ES_MAX
    requires k < |order|
    ensures GrowthWrites(base, mod, bonus, order[..k + 1]) ==
      GrowthWrite(GrowthWrites(base, mod, bonus, order[..k]), mod, bonus, order[k])
  {
    assert order[..k + 1][..k] == order[..k];
  }

  /** Made in sequence, growth writes to distinct stats grow each written stat as Grown does,
      from per-level values read before any write, and keep every other base stat: no write
      touches a per-level stat that a later write reads. */
  lemma {:induction false} GrowthWritesEffect(base: seq<real>, mod: seq<real>, bonus: seq<real>, order: seq<nat>)
    requires |base| == ES_MAX && |mod| == ES_MAX && |bonus| == ES_MAX
    requires forall i :: 0 <= i < |order| ==> GrowthOf(order[i]).Some?
    requires forall i, j :: 0 <= i < j < |order| ==> order[i] != order[j]
    ensures forall s :: 0 <= s < ES_MAX ==>
      GrowthWrites(base, mod, bonus, order)[s] == if s in order then Grown(base, mod, bonus)[s] else base[s]
    decreases |order|
  {
    if order != [] {
      var init, last := order[..|order| - 1], order[|order| - 1];
      GrowthWritesEffect(base, mod, bonus, init);
      GrowthSourcesAreNotGrown(last);
      var g := GrowthOf(last).value;
      assert last !in init by {
        forall i | 0 <= i < |init| ensures init[i] != last { assert order[i] != order[|order| - 1]; }
      }
      assert g !in init;
      forall s | 0 <= s < ES_MAX
        ensures (s in order) == (s in init || s == last)
      {
        assert order == init + [last];
      }
    }
  }

  /** The nine writes of a level-up, made in the manager's order, grow the base layer as
      Grown says. */
  lemma GrownIsGrowthWrites(base: seq<real>, mod: seq<real>, bonus: seq<real>)
    requires |base| == ES_MAX && |mod| == ES_MAX && |bonus| == ES_MAX
    ensures Grown(base, mod, bonus) == GrowthWrites(base, mod, bonus, GrowthOrder)
  {
    GrowthWritesEffect(base, mod, bonus, GrowthOrder);
    var g, w := Grown(base, mod, bonus), GrowthWrites(base, mod, bonus, GrowthOrder);
    forall s | 0 <= s < ES_MAX
      ensures g[s] == w[s]
    {
      if s !in GrowthOrder {
        assert GrowthOf(s).None?;
      }
    }
  }

  /** A state that differs from `st` only by the nine growth writes made in order and by
      the health and flare gains is the level-up of `st`. */
  lemma LevelGrowthInOrder(st: StatsState, after: StatsState)
    requires Layered(st)
    requires after == st.(base := GrowthWrites(st.base, st.mod, st.bonus, GrowthOrder),
                          health := st.health + CurrentOf(st, HPPL), flare := st.flare + CurrentOf(st, FlarePL))
    ensures after == LevelGrowth(st)
  {
    GrownIsGrowthWrites(st.base, st.mod, st.bonus);
  }

  /** What a level-up does to each stat, in the terms of the current values it reads. */
  lemma LevelGrowthEffect(st: StatsState)
    requires Layered(st)
    ensures forall s :: 0 <= s < ES_MAX && GrowthOf(s).Some? ==>
      LevelGrowth(st).base[s] == st.base[s] + CurrentOf(st, GrowthOf(s).value)
    ensures forall s :: 0 <= s < ES_MAX && GrowthOf(s).None? ==> LevelGrowth(st).base[s] == st.base[s]
    ensures LevelGrowth(st).base[HP] == st.base[HP] + CurrentOf(st, HPPL)
    ensures LevelGrowth(st).base[AtkSp] == st.base[AtkSp] + CurrentOf(st, AtkSpPL)
    ensures LevelGrowth(st).health == st.health + CurrentOf(st, HPPL)
    ensures LevelGrowth(st).flare == st.flare + CurrentOf(st, FlarePL)
    ensures LevelGrowth(st).(base := st.base, health := st.health, flare := st.flare) == st
  {
  }

  /** A reference to an effect actor: null, or the id of a spawned AEffect. */
  datatype EffectRef = NullEffect | EffectAt(id: nat)

  /** The fields of an AEffect that the stats manager reads and writes. `timerScheduled`
      stands for the expiry timer set when the duration is positive; `destroyed` for
      Destroy having been called on the actor. */
  datatype EffectRec = EffectRec(
    uiName: string, description: string, effectKey: string,
    stats: seq<nat>, amounts: seq<real>, duration: real, stacking: bool,
    stackAmount: int, timerScheduled: bool, destroyed: bool)

  /** What AddEffect's loop needs: one amount per listed stat and in-range stat indices. */
  predicate WellFormedEffect(e: EffectRec) {
    |e.amounts| >= |e.stats| && forall i :: 0 <= i < |e.stats| ==> e.stats[i] < ES_MAX
  }

  /** IsValid on an effect of the effect table: non-null and not destroyed. */
  predicate LiveIn(effects: map<nat, EffectRec>, r: EffectRef) {
    r.EffectAt? && r.id in effects && !effects[r.id].destroyed
  }

  /** The key under which OnRepUpdateEffects' adding pass maps `r`: none unless `r` is live
      and its key is not empty. */
  function MappedKey(effects: map<nat, EffectRec>, r: EffectRef): (ks: set<string>)
    ensures |ks| <= 1
    ensures ks != {} <==> LiveIn(effects, r) && effects[r.id].effectKey != ""
  {
    if LiveIn(effects, r) && effects[r.id].effectKey != "" then {effects[r.id].effectKey} else {}
  }

  /** The keys the adding pass maps for the effects of `list`, entry by entry. */
  function LiveKeys(effects: map<nat, EffectRec>, list: seq<EffectRef>): set<string>
    decreases |list|
  {
    if list == [] then {} else LiveKeys(effects, list[..|list| - 1]) + MappedKey(effects, list[|list| - 1])
  }

  /** Extending a prefix of `list` by one entry adds that entry's mapped key. */
  lemma LiveKeysSnoc(effects: map<nat, EffectRec>, list: seq<EffectRef>, n: nat)
    requires n < |list|
    ensures LiveKeys(effects, list[..n + 1]) == LiveKeys(effects, list[..n]) + MappedKey(effects, list[n])
  {
    assert list[..n + 1][..n] == list[..n];
  }

  /** A key is among the live keys exactly when some entry of the list is mapped under it. */
  lemma {:induction false} LiveKeysMembers(effects: map<nat, EffectRec>, list: seq<EffectRef>, k: string)
    ensures k in LiveKeys(effects, list) <==> exists t :: 0 <= t < |list| && k in MappedKey(effects, list[t])
    decreases |list|
  {
    if list != [] {
      var n := |list| - 1;
      var init := list[..n];
      assert LiveKeys(effects, list) == LiveKeys(effects, init) + MappedKey(effects, list[n]);
      LiveKeysMembers(effects, init, k);
      if k in LiveKeys(effects, init) {
        var t :| 0 <= t < |init| && k in MappedKey(effects, init[t]);
        assert list[t] == init[t];
      } else if k in MappedKey(effects, list[n]) {
      } else {
        forall t | 0 <= t < |list| ensures k !in MappedKey(effects, list[t]) {
          if t < n {
            assert list[t] == init[t];
          }
        }
      }
    }
  }

  /** The last entry of `list` is a non-null effect whose key is `k`. */
  predicate LastKeyIs(effects: map<nat, EffectRec>, list: seq<EffectRef>, k: string) {
    |list| > 0 && list[|list| - 1].EffectAt? && list[|list| - 1].id in effects &&
    effects[list[|list| - 1].id].effectKey == k
  }

  /** The keys of `m` that OnRepUpdateEffects' removal pass keeps. Its found flag is set
      anew for every list entry instead of accumulated, so a key survives exactly when it
      is the last entry's key. */
  function LastKept(effects: map<nat, EffectRec>, list: seq<EffectRef>, m: map<string, EffectRef>): (ks: set<string>)
    ensures forall k :: k in ks <==> k in m && LastKeyIs(effects, list, k)
  {
    if |list| > 0 && list[|list| - 1].EffectAt? && list[|list| - 1].id in effects &&
       effects[list[|list| - 1].id].effectKey in m
    then {effects[list[|list| - 1].id].effectKey}
    else {}
  }

  /** `r` is a live entry of `list` and `k` is its key. */
  predicate ListedUnder(effects: map<nat, EffectRec>, list: seq<EffectRef>, r: EffectRef, k: string) {
    r in list && LiveIn(effects, r) && effects[r.id].effectKey == k
  }

  /** Every effect `m` maps is a live entry of `list` under its own key, or the effect
      `before` maps under that key. */
  predicate ListOrKept(effects: map<nat, EffectRec>, list: seq<EffectRef>,
                       m: map<string, EffectRef>, before: map<string, EffectRef>)
  {
    forall k :: k in m ==> ListedUnder(effects, list, m[k], k) || (k in before && m[k] == before[k])
  }

  /** The adding pass has visited the first `n` entries of `list`, turning `before` into
      `m`: their mapped keys were added, and every mapped effect is a live entry under its
      own key or was mapped in `before`. */
  predicate MappedThrough(effects: map<nat, EffectRec>, list: seq<EffectRef>, n: nat,
                          before: map<string, EffectRef>, m: map<string, EffectRef>)
    requires n <= |list|
  {
    m.Keys == before.Keys + LiveKeys(effects, list[..n]) && ListOrKept(effects, list, m, before)
  }

  /** `m2` is `m`, or `m` with the live effect `r` mapped under its own key. */
  predicate MapsUnderKey(effects: map<nat, EffectRec>, r: EffectRef, m: map<string, EffectRef>, m2: map<string, EffectRef>) {
    m2 == m || (LiveIn(effects, r) && m2 == m[effects[r.id].effectKey := r])
  }

  /** One more entry visited: mapping it, if live, under its own key extends MappedThrough. */
  lemma MappedThroughStep(effects: map<nat, EffectRec>, list: seq<EffectRef>, n: nat,
                          before: map<string, EffectRef>, m: map<string, EffectRef>, m2: map<string, EffectRef>)
    requires n < |list| && MappedThrough(effects, list, n, before, m)
    requires m2.Keys == m.Keys + MappedKey(effects, list[n])
    requires MapsUnderKey(effects, list[n], m, m2)
    ensures MappedThrough(effects, list, n + 1, before, m2)
  {
    LiveKeysSnoc(effects, list, n);
    ListOrKeptStep(effects, list, m, m2, before, list[n]);
  }

  /** Mapping a live entry of `list` under its own key keeps ListOrKept. */
  lemma ListOrKeptStep(effects: map<nat, EffectRec>, list: seq<EffectRef>,
                       m: map<string, EffectRef>, m2: map<string, EffectRef>, before: map<string, EffectRef>, r: EffectRef)
    requires ListOrKept(effects, list, m, before) && r in list
    requires MapsUnderKey(effects, r, m, m2)
    ensures ListOrKept(effects, list, m2, before)
  {
  }

  /** Under ListOrKept, every non-null effect `m` maps is in the table when every one
      `before` maps is. */
  lemma ListOrKeptResolved(effects: map<nat, EffectRec>, list: seq<EffectRef>,
                           m: map<string, EffectRef>, before: map<string, EffectRef>)
    requires ListOrKept(effects, list, m, before)
    requires forall k :: k in before && before[k].EffectAt? ==> before[k].id in effects
    ensures forall k :: k in m && m[k].EffectAt? ==> m[k].id in effects
  {
  }

  /** An effect kept from an intermediate map whose entries all come from `before` is
      kept from `before`. */
  lemma ListOrKeptThrough(effects: map<nat, EffectRec>, list: seq<EffectRef>,
                          m: map<string, EffectRef>, kept: map<string, EffectRef>, before: map<string, EffectRef>)
    requires ListOrKept(effects, list, m, kept)
    requires forall k :: k in kept ==> k in before && kept[k] == before[k]
    ensures ListOrKept(effects, list, m, before)
  {
  }

  /** The total an effect adds to stat `s` through its first `n` entries: repeated stats
      add up. */
  function Contribution(stats: seq<nat>, amounts: seq<real>, n: nat, s: nat): real
    requires n <= |stats| <= |amounts|
  {
    if n == 0 then 0.0
    else Contribution(stats, amounts, n - 1, s) + (if stats[n - 1] == s then amounts[n - 1] else 0.0)
  }

  /** A layer after adding `sign * amounts[i]` into entry `stats[i]` for each i < n, in order:
      sign 1 is what AddEffect does to the bonus layer, sign -1 what EffectFinished does. */
  function Shifted(layer: seq<real>, stats: seq<nat>, amounts: seq<real>, n: nat, sign: real): (r: seq<real>)
    requires n <= |stats| <= |amounts|
    requires forall i :: 0 <= i < |stats| ==> stats[i] < |layer|
    ensures |r| == |layer|
  {
    if n == 0 then layer
    else
      var p := Shifted(layer, stats, amounts, n - 1, sign);
      p[stats[n - 1] := p[stats[n - 1]] + sign * amounts[n - 1]]
  }

  /** Entry by entry, shifting adds the signed total contribution to that entry. */
  lemma {:induction false} ShiftedAt(layer: seq<real>, stats: seq<nat>, amounts: seq<real>, n: nat, sign: real, s: nat)
    requires n <= |stats| <= |amounts|
    requires forall i :: 0 <= i < |stats| ==> stats[i] < |layer|
    requires s < |layer|
    ensures Shifted(layer, stats, amounts, n, sign)[s] == layer[s] + sign * Contribution(stats, amounts, n, s)
  {
    if n > 0 {
      ShiftedAt(layer, stats, amounts, n - 1, sign, s);
    }
  }

  /** Ending an effect undoes adding it: subtracting the same amounts restores every entry. */
  lemma {:induction false} ShiftedRoundTrip(layer: seq<real>, stats: seq<nat>, amounts: seq<real>)
    requires |stats| <= |amounts|
    requires forall i :: 0 <= i < |stats| ==> stats[i] < |layer|
    ensures Shifted(Shifted(layer, stats, amounts, |stats|, 1.0), stats, amounts, |stats|, -1.0) == layer
  {
    var up := Shifted(layer, stats, amounts, |stats|, 1.0);
    var down := Shifted(up, stats, amounts, |stats|, -1.0);
    forall s | 0 <= s < |layer|
      ensures down[s] == layer[s]
    {
      ShiftedAt(layer, stats, amounts, |stats|, 1.0, s);
      ShiftedAt(up, stats, amounts, |stats|, -1.0, s);
    }
  }

  /** Σ over the first `n` mods of their delta for stat `s`. */
  function ModTotal(deltas: seq<seq<real>>, n: nat, s: nat): real
    requires n <= |deltas|
    requires forall k :: 0 <= k < |deltas| ==> |deltas[k]| == ES_MAX
    requires s < ES_MAX
  {
    if n == 0 then 0.0 else ModTotal(deltas, n - 1, s) + deltas[n - 1][s]
  }

  /** The mod layer that a list of equipped mods' delta arrays produces. */
  function ModLayer(deltas: seq<seq<real>>): (r: seq<real>)
    requires forall k :: 0 <= k < |deltas| ==> |deltas[k]| == ES_MAX
    ensures |r| == ES_MAX
  {
    seq(ES_MAX, s requires 0 <= s < ES_MAX => ModTotal(deltas, |deltas|, s))
  }

  /** Equipping one more mod adds exactly its deltas to the mod layer. */
  lemma ModLayerAppend(deltas: seq<seq<real>>, m: seq<real>)
    requires forall k :: 0 <= k < |deltas| ==> |deltas[k]| == ES_MAX
    requires |m| == ES_MAX
    ensures forall s :: 0 <= s < ES_MAX ==> ModLayer(deltas + [m])[s] == ModLayer(deltas)[s] + m[s]
  {
    var d := deltas + [m];
    forall s | 0 <= s < ES_MAX
      ensures ModTotal(d, |deltas|, s) == ModTotal(deltas, |deltas|, s)
    {
      ModTotalPrefix(d, deltas, |deltas|, s);
    }
  }

  lemma {:induction false} ModTotalPrefix(d: seq<seq<real>>, e: seq<seq<real>>, n: nat, s: nat)
    requires n <= |e| <= |d| && e == d[..|e|]
    requires forall k :: 0 <= k < |d| ==> |d[k]| == ES_MAX
    requires s < ES_MAX
    ensures ModTotal(d, n, s) == ModTotal(e, n, s)
  {
    if n > 0 {
      ModTotalPrefix(d, e, n - 1, s);
    }
  }

  /** `s` with every occurrence of `x` removed, as TArray::Remove does: every other entry
      keeps its multiplicity, and (RemoveAllAppend) the kept entries keep their order. */
  function RemoveAll(s: seq<EffectRef>, x: EffectRef): (r: seq<EffectRef>)
    ensures x !in r
    ensures forall y :: y in r <==> y in s && y != x
    ensures multiset(r) == multiset(s)[x := 0]
    ensures x !in s ==> r == s
  {
    if s == [] then []
    else
      assert s == [s[0]] + s[1..];
      if s[0] == x then RemoveAll(s[1..], x)
      else [s[0]] + RemoveAll(s[1..], x)
  }

  /** Removal works piece by piece, so the entries that stay keep their relative order. */
  lemma {:induction false} RemoveAllAppend(a: seq<EffectRef>, b: seq<EffectRef>, x: EffectRef)
    ensures RemoveAll(a + b, x) == RemoveAll(a, x) + RemoveAll(b, x)
  {
    if a == [] {
      assert a + b == b;
    } else {
      assert (a + b)[0] == a[0];
      assert (a + b)[1..] == a[1..] + b;
      RemoveAllAppend(a[1..], b, x);
    }
  }

  class StatsManager {
    var baseStats: array<real>
    var modStats: array<real>
    var bonusStats: array<real>
    var health: real
    var flare: real
    var bInitialized: bool
    /** Role == ROLE_Authority for this actor. */
    var isAuthority: bool
    var effectsMap: map<string, EffectRef>
    var effectsList: seq<EffectRef>
    /** The effect actors spawned so far, by id; ids are never reused. */
    var effects: map<nat, EffectRec>
    var nextEffectId: nat

    ghost predicate Valid()
      reads this`baseStats, this`modStats, this`bonusStats, this`effects, this`nextEffectId, this`effectsMap, this`effectsList
    {
      baseStats.Length == ES_MAX && modStats.Length == ES_MAX && bonusStats.Length == ES_MAX &&
      baseStats != modStats && baseStats != bonusStats && modStats != bonusStats &&
      (forall id :: id in effects ==> id < nextEffectId && WellFormedEffect(effects[id])) &&
      (forall k :: k in effectsMap && effectsMap[k].EffectAt? ==> effectsMap[k].id in effects) &&
      (forall r :: r in effectsList && r.EffectAt? ==> r.id in effects)
    }

    /** A freshly spawned manager: all three layers zero, no effects. */
    constructor (authority: bool)
      ensures Valid() && fresh(baseStats) && fresh(modStats) && fresh(bonusStats)
      ensures baseStats[..] == modStats[..] == bonusStats[..] == seq(ES_MAX, _ => 0.0)
      ensures health == 0.0 && flare == 0.0 && !bInitialized && isAuthority == authority
      ensures effectsMap == map[] && effectsList == [] && effects == map[]
    {
      baseStats := new real[ES_MAX](_ => 0.0);
      modStats := new real[ES_MAX](_ => 0.0);
      bonusStats := new real[ES_MAX](_ => 0.0);
      health, flare := 0.0, 0.0;
      bInitialized := false;
      isAuthority := authority;
      effectsMap, effectsList, effects, nextEffectId := map[], [], map[], 0;
    }

    /** The value state of this manager. */
    function State(): (st: StatsState)
      reads this, baseStats, modStats, bonusStats
      requires Valid()
      ensures Layered(st)
    {
      StatsState(baseStats[..], modStats[..], bonusStats[..], health, flare, bInitialized, isAuthority,
                 effectsMap, effectsList, effects, nextEffectId)
    }

    function GetBaseValueForStat(stat: nat): real
      reads this, baseStats
      requires Valid() && stat < ES_MAX
    {
      baseStats[stat]
    }

    /** The value without timed effects: base plus mod. */
    function GetUnaffectedValueForStat(stat: nat): (r: real)
      reads this, baseStats, modStats
      requires Valid() && stat < ES_MAX
      ensures r - GetBaseValueForStat(stat) == modStats[stat]
    {
      baseStats[stat] + modStats[stat]
    }

    /** The value in play: what the timed effects add sits on top of the unaffected value. */
    function GetCurrentValueForStat(stat: nat): (r: real)
      reads this, baseStats, modStats, bonusStats
      requires Valid() && stat < ES_MAX
      ensures r - GetUnaffectedValueForStat(stat) == bonusStats[stat]
    {
      baseStats[stat] + modStats[stat] + bonusStats[stat]
    }

    method SetMaxHealth()
      requires Valid()
      modifies this`health
      ensures health == GetCurrentValueForStat(HP)
    {
      health := GetCurrentValueForStat(HP);
    }

    method SetMaxFlare()
      requires Valid()
      modifies this`flare
      ensures flare == GetCurrentValueForStat(Flare)
    {
      flare := GetCurrentValueForStat(Flare);
    }

    /** Copies the character's base stats once; later calls change nothing. The owning
        character reference it also stores only feeds display notifications. */
    method InitializeStats(initBaseStats: seq<real>)
      requires Valid() && |initBaseStats| >= ES_MAX
      modifies this`bInitialized, baseStats
      ensures Valid() && bInitialized
      ensures old(bInitialized) ==> baseStats[..] == old(baseStats[..])
      ensures !old(bInitialized) ==> baseStats[..] == initBaseStats[..ES_MAX]
    {
      if bInitialized {
        return;
      }
      for i := 0 to ES_MAX
        invariant forall k :: 0 <= k < i ==> baseStats[k] == initBaseStats[k]
      {
        baseStats[i] := initBaseStats[i];
      }
      bInitialized := true;
    }

    /** Spawns an effect under `effectKey`. On the authority its amounts go into the bonus
        layer; everywhere it is mapped by key and appended to the list. */
    method AddEffect(effectName: string, effectDescription: string, effectKey: string,
                     stats: seq<nat>, amounts: seq<real>, effectDuration: real, bStacking: bool)
      returns (id: nat)
      requires Valid()
      requires |amounts| >= |stats| && forall i :: 0 <= i < |stats| ==> stats[i] < ES_MAX
      modifies this, bonusStats
      ensures Valid() && id == old(nextEffectId) && id !in old(effects)
      ensures baseStats == old(baseStats) && modStats == old(modStats) && bonusStats == old(bonusStats)
      ensures effects == old(effects)[id := EffectRec(effectName, effectDescription, effectKey,
                stats, amounts, effectDuration, bStacking, 0, effectDuration > 0.0, false)]
      ensures bonusStats[..] == if isAuthority then Shifted(old(bonusStats[..]), stats, amounts, |stats|, 1.0)
                                else old(bonusStats[..])
      ensures effectsMap == old(effectsMap)[effectKey := EffectAt(id)]
      ensures effectsList == old(effectsList) + [EffectAt(id)]
      ensures isAuthority == old(isAuthority) && health == old(health) && flare == old(flare)
      ensures bInitialized == old(bInitialized)
    {
      // AddUnique below: the new id is fresh, so the effect is not in the list yet.
      assert EffectAt(nextEffectId) !in effectsList;
      id := nextEffectId;
      nextEffectId := nextEffectId + 1;
      effects := effects[id := EffectRec(effectName, effectDescription, effectKey,
                   stats, amounts, effectDuration, bStacking, 0, effectDuration > 0.0, false)];

      if isAuthority {
        for ind := 0 to |stats|
          modifies bonusStats
          invariant bonusStats[..] == Shifted(old(bonusStats[..]), stats, amounts, ind, 1.0)
        {
          bonusStats[stats[ind]] := bonusStats[stats[ind]] + amounts[ind];
        }
      }

      effectsMap := effectsMap[effectKey := EffectAt(id)];
      effectsList := effectsList + [EffectAt(id)];
    }

    /** Ends the effect stored under `key`: on the authority its amounts come off the bonus
        layer, the key leaves the map, the effect leaves the list and is destroyed.
        `AStatsManager::EffectFinished` dereferences the map lookup before its null check,
        so the key must be mapped;
        a key mapped to a null effect changes nothing. */
    method EffectFinished(key: string)
      requires Valid() && key in effectsMap
      modifies this, bonusStats
      ensures Valid()
      ensures baseStats == old(baseStats) && modStats == old(modStats) && bonusStats == old(bonusStats)
      ensures isAuthority == old(isAuthority) && health == old(health) && flare == old(flare)
      ensures bInitialized == old(bInitialized) && nextEffectId == old(nextEffectId)
      ensures old(effectsMap[key]).NullEffect? ==>
        bonusStats[..] == old(bonusStats[..]) && effectsMap == old(effectsMap) &&
        effectsList == old(effectsList) && effects == old(effects)
      ensures old(effectsMap[key]).EffectAt? ==>
        var r := old(effectsMap[key]);
        var e := old(effects[r.id]);
        effectsMap == old(effectsMap) - {key} &&
        effectsList == RemoveAll(old(effectsList), r) &&
        effects == old(effects)[r.id := e.(destroyed := true)] &&
        bonusStats[..] == if isAuthority then Shifted(old(bonusStats[..]), e.stats, e.amounts, |e.stats|, -1.0)
                          else old(bonusStats[..])
    {
      var effect := effectsMap[key];
      if effect.NullEffect? {
        return;
      }
      var e := effects[effect.id];

      if isAuthority {
        for ind := 0 to |e.stats|
          modifies bonusStats
          invariant bonusStats[..] == Shifted(old(bonusStats[..]), e.stats, e.amounts, ind, -1.0)
        {
          bonusStats[e.stats[ind]] := bonusStats[e.stats[ind]] - e.amounts[ind];
        }
      }

      effectsMap, effectsList, effects :=
        effectsMap - {key}, RemoveAll(effectsList, effect), effects[effect.id := e.(destroyed := true)];
    }

    /** Adds to the stack count of the effect under `effectKey`, if any; no stat changes.
        `AStatsManager::AddEffectStacks` dereferences the mapped effect, so a mapped key
        must hold a non-null one. */
    method AddEffectStacks(effectKey: string, stackAmount: int)
      requires Valid()
      requires effectKey in effectsMap ==> effectsMap[effectKey].EffectAt?
      modifies this`effects
      ensures Valid()
      ensures effectsMap == old(effectsMap) && effectsList == old(effectsList)
      ensures health == old(health) && flare == old(flare) && nextEffectId == old(nextEffectId)
      ensures effectKey !in effectsMap ==> effects == old(effects)
      ensures effectKey in effectsMap ==>
        var id := effectsMap[effectKey].id;
        effects == old(effects)[id := old(effects[id]).(stackAmount := old(effects[id]).stackAmount + stackAmount)]
    {
      if effectKey in effectsMap {
        var id := effectsMap[effectKey].id;
        var e := effects[id];
        effects := effects[id := e.(stackAmount := e.stackAmount + stackAmount)];
      }
    }

    /** The effect mapped under `effectKey`, or null. */
    function GetEffect(effectKey: string): (r: EffectRef)
      reads this
      requires Valid()
      ensures r.EffectAt? ==> effectKey in effectsMap && r.id in effects
      ensures effectKey in effectsMap ==> r == effectsMap[effectKey]
      ensures effectKey !in effectsMap ==> r.NullEffect?
    {
      if effectKey in effectsMap then effectsMap[effectKey] else NullEffect
    }

    method RemoveHealth(amount: real)
      modifies this`health
      ensures health == old(health) - amount
    {
      health := health - amount;
    }

    method RemoveFlare(amount: real)
      modifies this`flare
      ensures flare == old(flare) - amount
    {
      flare := flare - amount;
    }

    /** Rebuilds the mod layer from scratch from the equipped mods' delta arrays. */
    method UpdateModStats(deltas: seq<seq<real>>)
      requires Valid()
      requires forall k :: 0 <= k < |deltas| ==> |deltas[k]| == ES_MAX
      modifies modStats
      ensures modStats[..] == ModLayer(deltas)
    {
      for i := 0 to ES_MAX
        invariant forall s :: 0 <= s < i ==> modStats[s] == 0.0
      {
        modStats[i] := 0.0;
      }

      if |deltas| <= 0 {
        return;
      }

      for k := 0 to |deltas|
        invariant forall s :: 0 <= s < ES_MAX ==> modStats[s] == ModTotal(deltas, k, s)
      {
        for i := 0 to ES_MAX
          invariant forall s :: 0 <= s < i ==> modStats[s] == ModTotal(deltas, k + 1, s)
          invariant forall s :: i <= s < ES_MAX ==> modStats[s] == ModTotal(deltas, k, s)
        {
          modStats[i] := modStats[i] + deltas[k][i];
        }
      }
    }

    /** The k-th growth write of CharacterLevelUp, made after the k before it: base stat
        GrowthOrder[k] gains the current value of its per-level stat. */
    method GrowBaseStat(ghost initial: seq<real>, ghost mod: seq<real>, ghost bonus: seq<real>, k: nat)
      requires Valid() && |initial| == ES_MAX && k < |GrowthOrder|
      requires modStats[..] == mod && bonusStats[..] == bonus
      requires baseStats[..] == GrowthWrites(initial, mod, bonus, GrowthOrder[..k])
      modifies baseStats
      ensures Valid() && modStats[..] == mod && bonusStats[..] == bonus
      ensures baseStats[..] == GrowthWrites(initial, mod, bonus, GrowthOrder[..k + 1])
    {
      GrowthWritesStep(initial, mod, bonus, GrowthOrder, k);
      var s := GrowthOrder[k];
      var g := GrowthOf(s).value;
      baseStats[s] := baseStats[s] + GetCurrentValueForStat(g);
    }

    /** Grows each grown base stat by the current value of its per-level stat, and health
        and flare by the current per-level health and flare. */
    method CharacterLevelUp()
      requires Valid()
      modifies this`health, this`flare, baseStats
      ensures Valid()
      ensures State() == LevelGrowth(old(State()))
    {
      ghost var before := State();
      ghost var b, m, bo := before.base, before.mod, before.bonus;
      // The writes are the nine of GrowthWrites(b, m, bo, GrowthOrder), each reading the base
      // layer as the writes before it left it.
      assert GrowthOrder[..0] == [] && GrowthOrder[..9] == GrowthOrder;
      GrowBaseStat(b, m, bo, 0);  // HP
      health := health + GetCurrentValueForStat(HPPL);
      assert health == before.health + CurrentOf(before, HPPL);
      GrowBaseStat(b, m, bo, 1);  // Flare
      flare := flare + GetCurrentValueForStat(FlarePL);
      assert flare == before.flare + CurrentOf(before, FlarePL);
      GrowBaseStat(b, m, bo, 2);  // HPRegen
      GrowBaseStat(b, m, bo, 3);  // FlareRegen
      GrowBaseStat(b, m, bo, 4);  // SpAtk
      GrowBaseStat(b, m, bo, 5);  // Atk
      GrowBaseStat(b, m, bo, 6);  // Def
      GrowBaseStat(b, m, bo, 7);  // SpDef
      GrowBaseStat(b, m, bo, 8);  // AtkSp
      LevelGrowthInOrder(before, State());
    }

    /** The key of a non-null effect. */
    function KeyOf(r: EffectRef): string
      reads this`effects
      requires r.EffectAt? && r.id in effects
    {
      effects[r.id].effectKey
    }

    /** IsValid on an effect: non-null and not destroyed. */
    predicate IsLiveEffect(r: EffectRef)
      reads this`effects
    {
      LiveIn(effects, r)
    }

    /** `k` is the key of some non-null effect in the list. */
    ghost predicate IsListKey(k: string)
      reads this`effects, this`effectsList
    {
      exists i :: 0 <= i < |effectsList| && effectsList[i].EffectAt? && effectsList[i].id in effects &&
        KeyOf(effectsList[i]) == k
    }

    /** Reconciles the key map with the replicated effect list. The removal pass keeps
        only the key of the LAST list entry (its flag is overwritten, not accumulated);
        the adding pass maps every live, non-empty-keyed list effect, replacing the mapped
        effect unless its key happens to be the last one visited in the map. The removal
        pass reads the key of every list entry for each mapped key, so a non-empty map
        needs a list without null entries; the adding pass skips null entries. */
    method OnRepUpdateEffects()
      requires Valid()
      requires effectsMap != map[] ==> forall i :: 0 <= i < |effectsList| ==> effectsList[i].EffectAt?
      modifies this`effectsMap
      ensures Valid()
      ensures forall i :: 0 <= i < |effectsList| && IsLiveEffect(effectsList[i]) && KeyOf(effectsList[i]) != "" ==>
        KeyOf(effectsList[i]) in effectsMap
      ensures forall k :: k in effectsMap ==> IsListKey(k)
      ensures effectsMap.Keys == LastKept(effects, effectsList, old(effectsMap)) + LiveKeys(effects, effectsList)
      ensures ListOrKept(effects, effectsList, effectsMap, old(effectsMap))
    {
      RemoveUnlistedKeys();
      ghost var kept := effectsMap;
      var mapped := MapListEntries(effectsMap);
      ListOrKeptResolved(effects, effectsList, mapped, effectsMap);
      effectsMap := mapped;
      ListOrKeptThrough(effects, effectsList, effectsMap, kept, old(effectsMap));
      ReconciledKeysAreListKeys(old(effectsMap));
    }

    /** OnRepUpdateEffects' adding pass over the key map `m`: every live list effect with
        a non-empty key ends up mapped; a mapped effect is either the one `m` mapped or a
        list effect under its own key. */
    method MapListEntries(m: map<string, EffectRef>) returns (m': map<string, EffectRef>)
      requires forall j :: 0 <= j < |effectsList| && effectsList[j].EffectAt? ==> effectsList[j].id in effects
      ensures m'.Keys == m.Keys + LiveKeys(effects, effectsList)
      ensures ListOrKept(effects, effectsList, m', m)
    {
      m' := m;
      for i := 0 to |effectsList|
        invariant MappedThrough(effects, effectsList, i, m, m')
      {
        var next := MapListEntry(m', i);
        MappedThroughStep(effects, effectsList, i, m, m', next);
        m' := next;
      }
      assert effectsList[..|effectsList|] == effectsList;
    }

    /** Every key left by the reconciliation is the key of some list effect, and every
        live list effect with a non-empty key has its key among them. */
    lemma ReconciledKeysAreListKeys(m: map<string, EffectRef>)
      ensures forall k :: k in LastKept(effects, effectsList, m) + LiveKeys(effects, effectsList) ==> IsListKey(k)
      ensures forall i :: 0 <= i < |effectsList| && IsLiveEffect(effectsList[i]) && KeyOf(effectsList[i]) != "" ==>
        KeyOf(effectsList[i]) in LiveKeys(effects, effectsList)
    {
      forall k | k in LastKept(effects, effectsList, m) + LiveKeys(effects, effectsList) ensures IsListKey(k) {
        if k in LastKept(effects, effectsList, m) {
          assert KeyOf(effectsList[|effectsList| - 1]) == k;
        } else {
          LiveKeysMembers(effects, effectsList, k);
          var t :| 0 <= t < |effectsList| && k in MappedKey(effects, effectsList[t]);
          assert KeyOf(effectsList[t]) == k;
        }
      }
      forall i | 0 <= i < |effectsList| && IsLiveEffect(effectsList[i]) && KeyOf(effectsList[i]) != ""
        ensures KeyOf(effectsList[i]) in LiveKeys(effects, effectsList)
      {
        LiveKeysMembers(effects, effectsList, KeyOf(effectsList[i]));
      }
    }

    /** OnRepUpdateEffects' removal pass: a mapped key stays only when the found flag, set
        anew for each list entry, ends true, that is when it is the last entry's key. */
    method RemoveUnlistedKeys()
      requires Valid()
      requires effectsMap != map[] ==> forall i :: 0 <= i < |effectsList| ==> effectsList[i].EffectAt?
      modifies this`effectsMap
      ensures Valid()
      ensures effectsMap.Keys == LastKept(effects, effectsList, old(effectsMap))
      ensures forall k :: k in effectsMap ==> k in old(effectsMap) && effectsMap[k] == old(effectsMap)[k]
    {
      // over the map's keys in an unspecified order
      var keys := effectsMap.Keys;
      while keys != {}
        invariant Valid()
        invariant keys <= old(effectsMap).Keys
        invariant forall k :: k in effectsMap <==> k in old(effectsMap) && (k in keys || LastKeyIs(effects, effectsList, k))
        invariant forall k :: k in effectsMap ==> effectsMap[k] == old(effectsMap)[k]
        decreases keys
      {
        var k :| k in keys;
        assert k in old(effectsMap);
        var bEffectFound := false;
        for i := 0 to |effectsList|
          invariant bEffectFound == (0 < i && KeyOf(effectsList[i - 1]) == k)
        {
          bEffectFound := KeyOf(effectsList[i]) == k;
        }
        if !bEffectFound {
          effectsMap := effectsMap - {k};
        }
        keys := keys - {k};
      }
    }

    /** One round of OnRepUpdateEffects' adding pass over the key map `m`: the `i`-th list
        effect, when live with a non-empty key, is mapped under it, unless the scan of `m`,
        whose flag is set anew for each key, ends on that very key; either way the key is
        mapped afterwards. */
    method MapListEntry(m: map<string, EffectRef>, i: nat) returns (m': map<string, EffectRef>)
      requires i < |effectsList|
      requires forall j :: 0 <= j < |effectsList| && effectsList[j].EffectAt? ==> effectsList[j].id in effects
      ensures m'.Keys == m.Keys + MappedKey(effects, effectsList[i])
      ensures MapsUnderKey(effects, effectsList[i], m, m')
    {
      m' := m;
      var eff := effectsList[i];
      if !IsLiveEffect(eff) {
        return;
      }
      if KeyOf(eff) == "" {
        return;
      }
      var bEffectFound := false;
      var ks := m.Keys;
      while ks != {}
        invariant bEffectFound ==> KeyOf(eff) in m
        decreases ks
      {
        var k :| k in ks;
        bEffectFound := k == KeyOf(eff);
        ks := ks - {k};
      }
      if !bEffectFound {
        m' := m[KeyOf(eff) := eff];
      }
    }

    /** Registers an effect created elsewhere: a live effect is appended to the list unless
        already there and mapped under its own key; anything else is ignored. */
    method AddCreatedEffect(newEffect: EffectRef)
      requires Valid()
      requires newEffect.EffectAt? ==> newEffect.id in effects
      modifies this`effectsMap, this`effectsList
      ensures Valid()
      ensures effects == old(effects) && nextEffectId == old(nextEffectId)
      ensures health == old(health) && flare == old(flare)
      ensures !IsLiveEffect(newEffect) ==> effectsMap == old(effectsMap) && effectsList == old(effectsList)
      ensures IsLiveEffect(newEffect) ==>
        effectsMap == old(effectsMap)[KeyOf(newEffect) := newEffect] &&
        effectsList == (if newEffect in old(effectsList) then old(effectsList) else old(effectsList) + [newEffect])
    {
      if IsLiveEffect(newEffect) {
        if newEffect !in effectsList {
          effectsList := effectsList + [newEffect];
        }
        effectsMap := effectsMap[KeyOf(newEffect) := newEffect];
      }
    }
  }
}
